=== FILE: README.md ===
# Gerador de Posts Bíblicos: a verified model of the post pipeline

The web page asks a language model for three Instagram posts on a Bible
theme. The page's own logic lives in `script.js` and is modelled here:

- the prompt it sends (`buildPrompt`);
- the parser that turns the reply into posts (`parseApiResponse`,
  `formatCaption` and the `sanitizeContent` that is in effect);
- the index arithmetic of the carousel that shows the posts;
- the text that the copy button puts on the clipboard.

Every operation is a pure Dafny function over strings, sequences and small
datatypes. The browser (DOM, timers, `fetch`, clipboard) enters only as
parameters.

Modules, in the order the data flows:

| module | file | what it holds |
|---|---|---|
| `Options` | options.dfy | `Option<T>` for absent properties and failed matches |
| `JsText` | js_text.dfy | JavaScript's `\s`, `\d`, `\w`, ASCII case folding for `/i`, `trim`, greedy runs, and the decimal digits that `parseInt` reads |
| `LineEndings` | line_endings.dfy | the `\r\n` and `\r` replacements of line 97 |
| `Markers` | markers.dfy | the global `**Post N:**` expression and its `exec` loop (lines 98-103) |
| `Fields` | fields.dfy | the `Imagem` and `Legenda` expressions (lines 105 and 108), backtracking included |
| `Hashtags` | hashtags.dfy | the hashtag expression of `formatCaption` (lines 121-122) |
| `Sanitize` | sanitize.dfy | `sanitizeContent` (lines 263-267): HTML text serialisation, then `\n` to `<br>` |
| `Parser` | parser.dfy | `parseApiResponse` and `formatCaption` |
| `Prompt` | prompt.dfy | `buildPrompt` |
| `Carousel` | carousel.dfy | `currentSlide`, next, previous, go-to, the timer, clear, render, fallback, one generate click |
| `Clipboard` | clipboard.dfy | `copyCurrentSlide` |

Conventions:

- The file stores its accented text as the Mac Roman reading of UTF-8
  bytes, e.g. `Descri√ß√£o`. This affects the prompt template, the
  copy headings and two character classes. Those strings are modelled
  character for character as written, using `\U{...}` escapes.
- Regular expressions are modelled by what they match. A lazy group stops
  at the first position the lookahead accepts. The backtracking of the
  field patterns is an ordered list of candidate positions in the order
  the engine tries them.
- JavaScript `%` truncates toward zero, and `x % 0` is `NaN`. Both are
  written out: `Carousel.JsRem`, and `Carousel.Index = At(i) | NaN`.
- What `script.js` does, in places where a reader might expect otherwise:
  - posts with empty fields are kept, not dropped;
  - the sanitiser that is in effect (lines 263-267) does not strip
    `**` or quotation marks and does not trim;
  - a field label is read only with a `*` directly on each side of the
    word, as in `**Imagem**:` or `*Legenda*`. So `- Imagem:`, the form the
    prompt itself asks for, and `**Imagem:**` do not match, and the field
    comes out empty;
  - the hashtag class is written `[\w√Ä-√∫]`, the Mac Roman reading of
    the UTF-8 bytes of `À-ú`. It holds `\w`, U+221A, the range
    U+00C4..U+221A and U+222B. That range contains the Unicode spaces
    U+1680, U+2000-U+200A, U+2028, U+2029, U+202F and U+205F, so such a
    space continues a hashtag. `#`, the ASCII spaces, U+00A0, U+3000 and
    U+FEFF do not.

## Model

Four definitions that transcribe one source expression each carry no
contract of their own and have no row; the rows below fix what they
compute. `Markers.MarkerId` (`parseInt` at script.js:103) is covered by
`JsText.DecimalRoundTrip` and `Parser.PostIds`. `Sanitize.SerializeText`
and `Sanitize.BreakLines` (script.js:265-266) are covered by
`Sanitize.Sanitize` and `Sanitize.TwoPassesAreUnitwise`.
`Clipboard.ReplaceBreaks` (script.js:195-197) is covered by
`Clipboard.ReplaceBreaksOfUnits`.

| member | source | states |
|---|---|---|
| JsText.Trim | script.js:72 | the result is a slice of the input, has no JavaScript white space at either end, and only white space was cut from either side |
| JsText.TrimOfTrimmed | script.js:122 | trimming a string that has no white space at its ends changes nothing |
| JsText.DecimalRoundTrip | script.js:103 | `parseInt(_, 10)` of the decimal digits of `n` gives back `n` |
| LineEndings.ReplaceCrLf | script.js:97 | the `\r\n` pass never lengthens the text and leaves a text without `\r` unchanged |
| LineEndings.ReplaceCr | script.js:97 | the `\r` pass keeps the length and every other character, and removes every `\r` |
| LineEndings.Normalize | script.js:97 | the normalised text has no `\r`, is no longer than the input, and is the input itself when the input had no `\r` |
| LineEndings.NormalizeUnifiesNewlines | script.js:97 | the two passes agree with a single left-to-right reading that turns each `\r\n` and each lone `\r` into one `\n` |
| Markers.DigitsStart | script.js:98 | the `(\d+)` group starts at the end of the whole run of white space after `**Post`: everything between is white space and the next character is not |
| Markers.DigitsEnd | script.js:98 | the greedy `\d+` takes every digit from its start and stops at the end of the text or at the first non-digit |
| Markers.MarkerEnd | script.js:98 | a marker is at least ten characters long and ends inside the text |
| Markers.MarkerDigits | script.js:98 | the captured id is a non-empty run of ASCII digits |
| Markers.NextMarker | script.js:98-101 | the result is the leftmost marker at or after the search position, and none is returned exactly when no marker follows |
| Markers.SegmentEnd | script.js:98 | the lazy body stops at the first later marker, or at the end of the text when there is none |
| Markers.Scan | script.js:98-103 | the `exec` loop yields valid, adjacent matches that start at the leftmost marker and run to the end of the text, and yields none exactly when no marker occurs |
| Markers.ChainFacts | script.js:98-103 | every match of the loop is valid, each starts where the previous one ended, and the last ends the text |
| Markers.ScanFindsNothingIffNoMarker | script.js:101 | the loop finds nothing if and only if no position holds a marker |
| Markers.SegmentsTile | script.js:102 | adjacent segments glued together give the text from the first segment on, with nothing lost or repeated |
| Markers.WrittenMarkerHasItsId | script.js:75 | `**Post N:**`, written as the prompt writes it, is a marker and its id reads back as `N` |
| Markers.MarkerShift | script.js:98 | a marker keeps its id whatever text precedes it |
| Markers.DigitsShift | script.js:98 | the space run and digit run of a marker do not depend on the text before it |
| Fields.NextTerminator | script.js:105 | the lazy capture stops at the first line break that the lookahead accepts, and there is none exactly when nothing is returned |
| Fields.StarsEnds | script.js:105 | `\*\*?` tries two stars before one: `[i+2, i+1]` after `**`, `[i+1]` after a lone `*`, nothing otherwise, and every end follows a star |
| Fields.WordEnds | script.js:105 | the label word offers an end if and only if the text there matches the word ignoring ASCII case, and that end is right after the word |
| Fields.ColonEnds | script.js:105 | `:?` tries the colon first: `[i+1, i]` at a colon, `[i]` otherwise |
| Fields.SpacesEnds | script.js:105 | `\s*` tries the whole run of white space first, then one character less each time, down to the empty run |
| Fields.OpenerEnds | script.js:105 | the opener group tries `**`, then `***`, then a quote character, then nothing, in that order; a lone `*` is no opener, so before it only the empty alternative is tried |
| Fields.FirstCapture | script.js:105 | the capture comes from the first candidate whose lazy body meets a terminator, and there is none exactly when no candidate does |
| Fields.MatchAt | script.js:105 | the attempt from a position fails exactly when no candidate start reaches a terminator; otherwise group 1 starts at the first candidate, in backtracking order, that does, and runs to the first terminator from there |
| Fields.FirstHit | script.js:105 | the first position where the pattern matches is returned, and every position before it fails |
| Fields.Search | script.js:105 | a match found from a position is a real capture at or after it, and is the attempt made at its own start |
| Fields.SearchIsLeftmost | script.js:105 | whenever the pattern matches at some position, the search finds a match no later than that position |
| Fields.Find | script.js:105 | `segment.match` returns a real capture when it returns one |
| Fields.Extract | script.js:105-109 | without a match the field is `''`; with one it is a slice of the segment that holds no terminator and is followed by one |
| Fields.FindIsLeftmost | script.js:105 | whenever the pattern matches from some position, `match` finds a match no later than it |
| Fields.FindIsAttemptAtItsStart | script.js:105 | the match `match` returns is the attempt made at its own start, with the label word where `WordStart` puts it, after a star |
| Fields.LeftmostBeforeFirstLabel | script.js:105 | an attempt no later than two places before the first starred label, whose word is a starred label, starts exactly there |
| Fields.FindStartsAtFirstLabel | script.js:105 | a match returned no later than two places before the first starred label starts exactly there |
| Fields.FindAtFirstLabel | script.js:105 | when the pattern matches from two places before the first starred label, the match returned starts there |
| Fields.FindIsFirstAttempt | script.js:105 | in that case the match returned is exactly that attempt |
| Fields.StarsHead | script.js:105 | after `**`, `\*\*?` first tries taking both stars |
| Fields.WordHead | script.js:105 | where the label word is, it is the first thing tried |
| Fields.ColonHead | script.js:105 | at a colon, `:?` first tries taking it |
| Fields.SpacesThenHead | script.js:105 | `\s*` first tries the whole run of white space |
| Fields.OpenerHead | script.js:105 | before a character that is neither `*` nor an opener character, the opener group first tries nothing |
| Fields.CandidatesUnfold | script.js:105 | the candidate starts are the six atoms of the prefix applied in pattern order |
| Fields.DoubleStarredLabel | script.js:105 | from the first star of `**Label**`, the first way through the stars, the label and the stars ends after the second closing star |
| Fields.ColonSpacesOpener | script.js:105 | after that, a colon, white space and a character that is neither `*` nor an opener character: the first way through `:?`, `\s*` and the opener ends at that character |
| Fields.DoubleStarredCandidate | script.js:105 | for `**Label**:`, white space and a character that is neither `*` nor an opener, the first candidate start is that character |
| Fields.DoubleStarredMatch | script.js:105 | the attempt from the first star of `**Label**:` is the capture whose label word is the label, whose group 1 starts after the colon and all the white space, and ends at the first terminator |
| Fields.DoubleStarredFind | script.js:105 | when no starred label comes earlier, that capture is the one `match` returns |
| Fields.ExtractOfFind | script.js:105-109 | the field is the text of group 1 of the match returned |
| Fields.DoubleStarredFieldStart | script.js:105-109 | a field written `**Label**:` with a terminator after it is the text from its first non-space character to the first terminator, with no star, colon or space in front |
| Fields.CandidateSound | script.js:105 | every position the engine tries for the capture follows a starred label that is complete |
| Fields.RouteLabel | script.js:105 | any way the prefix can match passes through a starred label word |
| Fields.ShortestCandidate | script.js:105 | right after `*Label*` is always among the positions tried |
| Fields.ShortestRoute | script.js:105 | one star, the label, one star and nothing else is a way the prefix matches |
| Fields.LabelMatchesAt | script.js:105 | a starred label with a terminator after it matches at the star before it |
| Fields.LabelAndTerminatorMatch | script.js:105-108 | a starred label followed by a terminator makes the field pattern match |
| Fields.FindIffLabelAndTerminator | script.js:105-109 | the field pattern matches if and only if the segment holds a starred label with a terminator after it |
| Fields.FieldAtEndIsLost | script.js:105-108 | as written: a field whose label is on the last line of the segment, with no earlier label, is not matched |
| Fields.FieldAtEndIsKept | script.js:105-108 | with `\Z` read as the end of the text, that field is matched and its capture runs to the segment's final line break |
| Hashtags.SplitTags | script.js:121-122 | the caption is the gaps and the tags interleaved, the remainder is the gaps alone, no gap holds a tag start, no gap after a tag starts with a tag character, and every tag is `#` with a run of tag characters |
| Hashtags.SplitCaption | script.js:120-124 | the caption text is what the scan leaves once the tags are removed, trimmed, and holds no tag and no white space at either end; the hashtags are the tags joined by single spaces, empty exactly when the caption holds no tag, and scanning them again finds the caption's tags |
| Hashtags.CaptionText | script.js:122 | the caption text holds no tag and no white space at either end |
| Hashtags.CaptionHashtags | script.js:121 | the joined hashtags are empty exactly when the caption holds no tag, and scanning them again finds the caption's tags |
| Hashtags.SplitCaptionOfTokens | script.js:120-124 | for any way of writing the caption as gaps and whole tags, with no tag start in a gap and no gap after a tag going on with a tag character, the text is the caption with exactly those tags removed, then trimmed, and the hashtags are those tags joined by single spaces, or `''` when there are none |
| Hashtags.TokenizationIsScan | script.js:121-122 | the left-to-right scan finds that way of writing the caption, and it is the only one |
| Hashtags.CaptionTagsRejoined | script.js:121 | the caption's tags joined by spaces are empty exactly when there are none, and rescan into the same tags |
| Hashtags.TagRun | script.js:121 | from a `#` followed by a tag character, the greedy run is a whole tag, at least two characters long, and stops at the end or before a non-tag character |
| Hashtags.AfterTag | script.js:121-122 | a tag at the front followed by the split of the text after it reassembles the caption, and the next gap does not start with a tag character |
| Hashtags.ExtendFirstGap | script.js:121-122 | a character that starts no tag goes into the first gap, and the caption still reassembles |
| Hashtags.TagThenText | script.js:121 | a tag followed by text that does not go on with a tag character is found first, then the scan goes on in the text |
| Hashtags.SpaceThenText | script.js:121 | a leading space starts no tag |
| Hashtags.RescanStep | script.js:121 | one more tag in front of a joined list that rescans correctly also rescans correctly |
| Hashtags.ScanFromTag | script.js:121-122 | a scan that finds a tag at the start takes the whole greedy run and continues after it |
| Hashtags.ScanFromOther | script.js:121-122 | a scan that finds no tag at the start keeps the first character in the remainder |
| Hashtags.SplitOfTagFree | script.js:121-122 | a caption without a tag yields no hashtags and is left unchanged |
| Hashtags.TagsFoundIffTagPresent | script.js:121 | the match list is empty if and only if the caption holds no tag |
| Hashtags.TrimKeepsNoTag | script.js:122 | trimming a text without tags leaves no tags |
| Hashtags.SplitCaptionIdempotent | script.js:121-122 | splitting the caption text a second time finds no further hashtags and changes nothing |
| Hashtags.JoinedTagsRescan | script.js:121 | the hashtags joined by spaces, scanned again, give back the same list of tags |
| Hashtags.TagRunIsWhole | script.js:121 | a tag followed by a non-tag character is read as a whole |
| Hashtags.RunStopsAt | script.js:121 | the greedy tag run stops at the first non-tag character |
| Sanitize.Sanitize | script.js:263-267 | the result holds no raw line break, every `&` and `<` starts a character reference or a `<br>`, and reading it back as HTML text gives the input |
| Sanitize.UnitsAreSafe | script.js:263-267 | the character-by-character form of the sanitiser keeps the same three properties |
| Sanitize.UnitPrefix | script.js:265-266 | putting the sanitised form of one character in front of a safe text keeps it safe, and it reads back as that character |
| Sanitize.UnescapeUnit | script.js:265-266 | the sanitised form of a character reads back as that character |
| Sanitize.BreakLinesAppend | script.js:266 | the `\n` to `<br>` replacement distributes over concatenation |
| Sanitize.BreakLinesWithoutNewline | script.js:266 | the replacement leaves a text without `\n` unchanged |
| Sanitize.BreakLinesOfEscape | script.js:265-266 | on one serialised character the two passes give that character's sanitised form |
| Sanitize.TwoPassesAreUnitwise | script.js:265-266 | serialising, then replacing line breaks, is the same as sanitising character by character |
| Sanitize.SanitizeKeepsPlainText | script.js:263-267 | text without `&`, `<`, `>`, U+00A0 or `\n` is returned unchanged |
| Sanitize.SanitizeKeepsPlainPrefix | script.js:263-267 | a plain prefix survives sanitisation unchanged |
| Sanitize.UnitsAppend | script.js:263-267 | sanitising distributes over concatenation |
| Parser.RawText | script.js:96 | the reply text is the text of the first part of the first candidate whenever every link of the chain is present, and is empty otherwise |
| Parser.FormatCaption | script.js:120-124 | the caption text and the hashtags read back to the hashtag split of the caption, and neither holds a raw line break |
| Parser.CaptionOfEmpty | script.js:109 | an empty caption gives an empty text and no hashtags |
| Parser.BuildPost | script.js:102-111 | the post carries the id it was given |
| Parser.BuildPostFields | script.js:105-111 | the image description reads back to the image capture and is empty without a match; the caption fields come from the split caption capture and are empty without a match; no field holds a raw line break |
| Parser.PostsOf | script.js:101-112 | one post per segment |
| Parser.PostsOfAt | script.js:111 | the k-th post is built from the k-th segment and the k-th id |
| Parser.PostsIn | script.js:98-112 | the text yields one post per match of the marker expression |
| Parser.ParseText | script.js:97-117 | parsing fails if and only if the normalised text holds no marker, and otherwise yields the non-empty list of one post per marker |
| Parser.ParseApiResponse | script.js:95-118 | the reply is the "no posts" error if and only if its text, once normalised, holds no marker, a missing text included; otherwise it gives one post per marker, at least one |
| Parser.PostsOfIds | script.js:103-111 | each post built carries its own segment's id |
| Parser.PostsOfFields | script.js:105-111 | each post built has its own segment's image capture, and no raw line break in any field |
| Parser.PostsOfSpansIds | script.js:101-111 | the post built from the k-th match carries the id of that match's marker |
| Parser.PostIds | script.js:101-111 | the k-th post carries the id written in the k-th marker found |
| Parser.PostsOfSpansFields | script.js:101-111 | the post built from the k-th match has that match's image capture and no raw line break in any field |
| Parser.PostFields | script.js:101-111 | each post's image description reads back to the image capture of its own segment, and no field of any post holds a raw line break |
| Parser.MissingTextFails | script.js:95-117 | a reply without text, or with a broken property chain, is the "no posts" error |
| Parser.SegmentsCoverText | script.js:98-102 | the segments of all posts glued together are the text from the first marker on |
| Prompt.BuildPrompt | script.js:71-93 | the fixed template around the theme always comes first, and something follows it if and only if the trimmed extra instructions are not empty |
| Prompt.ReadBuiltPrompt | script.js:72-92 | for a theme without `"`, the theme and the trimmed extra instructions can both be read back from the prompt |
| Prompt.ReadBack | script.js:73-92 | reading back works for any template whose body starts with the closing quote |
| Prompt.QuoteEndsTheme | script.js:73 | the theme ends at the first `"` after the opening quote |
| Prompt.PromptMarkers | script.js:75-83 | the prompt holds, in order, the markers the parser reads with ids 1, 2 and 3 |
| Prompt.ThreeBlocks | script.js:75-85 | three post blocks in a row carry the markers 1, 2 and 3 at their starts |
| Prompt.Pieces | script.js:73-92 | where the three blocks stand in the prompt |
| Prompt.BlockMarker | script.js:75 | wherever a block for post `n` occurs, a marker with id `n` starts |
| Carousel.JsRem | script.js:162-174 | JavaScript's remainder differs from the dividend by a multiple of the divisor and takes the dividend's sign |
| Carousel.RemainderDropped | script.js:164 | dropping a remainder leaves a multiple of the divisor |
| Carousel.MultipleMod | script.js:164 | a multiple of `n` leaves remainder 0 |
| Carousel.JsRemOfNatural | script.js:164 | on a non-negative dividend JavaScript's `%` is the mathematical remainder |
| Carousel.Rem | script.js:162-174 | the remainder is `NaN` if and only if the index is `NaN` or there are no slides, and otherwise lies strictly between `-n` and `n` |
| Carousel.Highlight | script.js:182-189 | the slide marked active is the one whose position equals `currentSlide`, and none is marked when `currentSlide` names no slide |
| Carousel.OneActiveIffOnSlide | script.js:182-189 | at most one slide is active, and exactly one is active if and only if `currentSlide` names a slide |
| Carousel.MoveTo | script.js:165-166 | after a move a slide is shown if and only if the new index names a slide, and the timer is running |
| Carousel.ShowNext | script.js:162-167 | from a slide the next one is shown, wrapping from the last slide to the first; with no slides or a `NaN` index the index is `NaN` and nothing is shown |
| Carousel.StepForward | script.js:164 | on a slide `(i + 1) % n` is `i + 1`, or `0` from the last slide |
| Carousel.StepBack | script.js:171 | on a slide `(i - 1 + n) % n` is `i - 1`, or `n - 1` from the first slide |
| Carousel.ShowPrevious | script.js:169-174 | from a slide the previous one is shown, wrapping from the first slide to the last; with no slides or a `NaN` index the index is `NaN` and nothing is shown |
| Carousel.GoTo | script.js:176-180 | a slide is shown if and only if the index given names one |
| Carousel.Tick | script.js:219-222 | a stopped timer changes nothing; a running one moves from a slide to the next, wrapping from the last to the first, and from `NaN` or an empty carousel shows no slide |
| Carousel.Clear | script.js:239-246 | after clearing no slide is shown, the index is 0, the timer is as it was, and rendering any positive number of posts then shows the first |
| Carousel.Render | script.js:129-160 | rendering keeps the index, and a slide is shown exactly when the index is 0 and there is at least one post |
| Carousel.Start | script.js:219-222 | starting sets the timer running without moving the index or changing what is shown, and from then on a tick is a next-slide click |
| Carousel.Fallback | script.js:248-261 | the error view is one slide, keeps the index, and is shown exactly when the index is 0 |
| Carousel.Generate | script.js:31-51 | a reply with posts leaves one slide per post and the timer running; a failure leaves the single error slide |
| Carousel.IndexArithmetic | script.js:162-180 | on a slide, next is `(i + 1) mod n`, previous is `(i - 1 + n) mod n`, both land on a slide, and clearing goes back to 0 |
| Carousel.MovesKeepShowing | script.js:162-189 | while a slide is shown, next, previous and a tick keep one shown, and go-to does if and only if its index is in range |
| Carousel.NextPreviousInverse | script.js:162-174 | next then previous, and previous then next, return to the same slide |
| Carousel.NextN | script.js:162-167 | repeated next clicks keep the number of slides |
| Carousel.NextSteps | script.js:164 | `k` next clicks that do not reach the end move the index forward by `k` |
| Carousel.NextNSplit | script.js:162-167 | `a + b` next clicks are `a` clicks followed by `b` clicks |
| Carousel.WrapAround | script.js:164 | a next click on the last slide goes to the first |
| Carousel.FullCycle | script.js:162-167 | `n` next clicks on `n` slides come back to the same slide |
| Carousel.NaNPersists | script.js:129-174 | once the index is `NaN`, ticks and renders keep it `NaN` and never mark a new slide active |
| Carousel.GoToRecovers | script.js:176-180 | from `NaN`, only go-to with an index in range shows a slide again; next and previous do not |
| Carousel.StoppedTicks | script.js:219-226 | a stopped timer changes nothing, however many ticks pass |
| Carousel.TickWhileWaitingLosesSlide | script.js:239-242 | as written: when the previous timer is running and ticks while the request is out, the new posts are rendered with a `NaN` index, which names no slide even though slide 0 stays marked until the next tick, and that tick unmarks it |
| Carousel.GenerateWithoutTickShows | script.js:39-42 | when no tick falls inside the request, the new posts are shown from the first slide |
| Carousel.ClearStopping | script.js:239-246 | the corrected clear shows no slide, resets the index to 0, stops the timer so a tick changes nothing, and rendering and starting any positive number of posts then shows the first |
| Carousel.GenerateStoppingShows | script.js:31-51 | with the corrected clear, a slide is always shown from index 0 after a generate click, however long the request takes |
| Clipboard.ReplaceBreaksSkipsPlain | script.js:195-197 | the `<br>` replacement passes over text without `<` unchanged |
| Clipboard.ReplaceBreaksUnit | script.js:195-197 | on the sanitised form of one character the replacement gives back a line break for `\n` and the sanitised form otherwise |
| Clipboard.ReplaceBreaksOfUnits | script.js:195-197 | replacing `<br>` in sanitised text is serialisation with the replacement in place of each line break |
| Clipboard.RestoreLines | script.js:195-196 | with `\n` as the replacement, that is HTML text serialisation alone |
| Clipboard.RestoreWithoutLines | script.js:197 | for text without line breaks the replacement changes nothing |
| Clipboard.CopiedText | script.js:195-196 | the image description and the caption text on the clipboard are the serialised reply text, with its character references and not the original characters |
| Clipboard.CopiedHashtags | script.js:197 | the hashtags are copied exactly as stored |
| Clipboard.CopiedPlainText | script.js:195-196 | text without `&`, `<`, `>` or U+00A0 comes back on the clipboard unchanged |
| Clipboard.SerializePlain | script.js:265 | HTML serialisation leaves such text unchanged |
| Clipboard.ClipboardText | script.js:195-197 | the copy starts with the image heading, and fields without `<` appear exactly as the post holds them, each after its heading |
| Clipboard.ReplaceBreaksOfPlain | script.js:195-197 | the `<br>` replacement leaves a text without `<` as it is |
| Clipboard.ClipboardOfFields | script.js:195-197 | the clipboard text of a post is the three headings, then the serialised image description and caption text, then the stored hashtags |
| Clipboard.CopyKeepsReferences | script.js:195-196 | as written: an image description `&` is copied as `&amp;` |
| Clipboard.RestoredClipboardOfFields | script.js:195-197 | with the corrected copy, the clipboard gives back the image description, the caption text and the hashtags as they were before sanitising |
| Clipboard.JoinedTagsHaveNoNewline | script.js:121 | hashtags joined by spaces hold no line break |
| Clipboard.HashtagsHaveNoNewline | script.js:121 | the hashtag string of any caption holds no line break |
| Clipboard.CopyOfBuiltPost | script.js:191-197 | the clipboard text of a parsed post is the serialised image capture, the serialised caption text and the stored hashtags |
| Clipboard.RestoredCopyOfBuiltPost | script.js:191-197 | with the corrected copy, the clipboard holds the image capture and the caption text exactly as the reply wrote them |
| Clipboard.BuiltPostFields | script.js:105-124 | a parsed post is the sanitised image capture and the sanitised parts of the split caption capture |
| Clipboard.CopyCurrent | script.js:191-197 | copying does nothing without posts, fails if and only if there are posts but `currentSlide` names none, and otherwise copies the text of the post at `currentSlide` |
| Clipboard.CopyWhileShowing | script.js:191-197 | while a slide is shown, copying copies the post of that slide |
| Clipboard.CopyAfterLostSlide | script.js:191-194 | as written: after a tick during the request, copying finds no post at the index |
| Clipboard.CopyAfterStoppingClear | script.js:191-197 | with the corrected clear, copying after a generate click copies the first post |

## Left out

- Rendering, styling, the loading spinner, error messages and the slide
  HTML are left out. These are DOM effects with no logic to prove. The
  carousel state keeps only the number of slides and which are marked
  active.
- The navigation dots are left out. Whether they appear depends on
  index.html, which is not part of this model. `clearCarousel` writes a
  new `#carouselNav` inside the slide container and looks it up by id
  (script.js:240-241). If no element with that id comes earlier in the
  page, the lookup returns the new one. `renderCarousel` then empties the
  slide container (script.js:129), so the dots go into a detached element
  and are not shown. If the page has its own `#carouselNav` before the
  container, the lookup returns that one and the dots are shown.
  `Carousel.GoTo` models `goToSlide` (script.js:176-180) as if a dot can
  be clicked.
- The 8000 ms interval is left out. Time is a number of ticks: `Tick`,
  `Ticks`, and the `waiting` parameter of `Generate`. When a tick falls is
  a parameter, not a clock.
- `resetCarouselInterval` is left out. It restarts the timer, and
  restarting does not change when the index moves in a tick-count model.
- `fetchPostsData` (script.js:53-69) is left out. The network request, the
  HTTP error path and the JSON decoding are I/O. The decoded reply enters
  as the `Parser.ApiResponse` datatype, and the outcome enters
  `Carousel.Generate` as an `Option`.
- The clipboard API call and the copy feedback (script.js:199-217) are
  left out. These are browser I/O. `Clipboard.CopyCurrent` returns the
  text that would be written.
- The theme check in `handleGenerateClick` (script.js:32-37) is left out.
  It is a DOM read and an early return. `Prompt.BuildPrompt` takes the
  theme, and the untrimmed value of the extra-instructions field, as
  parameters.
- The earlier `sanitizeContent` (script.js:126-128) is left out. A later
  declaration with the same name in the same function body replaces it,
  so it is never called.
- api/gemini.js and gemini.js are not part of this model.
- JavaScript strings are UTF-16 code units. Here strings are sequences of
  Unicode scalar values. The expressions used involve no character
  outside the Basic Multilingual Plane, so matching is the same. Lengths
  of text holding emoji differ, and no contract depends on them.
- `Markers.MarkerId` reads the id as an unbounded natural number.
  `parseInt` loses precision beyond 2^53, which is not modelled.
- Fields.Search: its contract does not state that the match is the
  leftmost one. That is the separate lemma `Fields.SearchIsLeftmost`.
- Fields.Find: its contract states soundness only. The if-and-only-if
  with a starred label and a terminator is
  `Fields.FindIffLabelAndTerminator`.
- Prompt.PromptMarkers: it states that markers 1, 2 and 3 exist in order.
  It does not give their exact offsets in the prompt.
- Parser.BuildPost: the contract states only the id. The fields are
  stated by `Parser.BuildPostFields`.

## Findings

| source | as written | input that shows it | evidently intended | confidence | as-written member | corrected member |
|---|---|---|---|---|---|---|
| script.js:239-242 | `clearCarousel` resets `currentSlide` to 0 and removes the slides, but does not stop the autoplay timer of the previous carousel, and `renderCarousel` does not reset the index | a second generate click while the first carousel is playing, with the reply arriving after the timer has fired at least once: that tick computes `(0 + 1) % 0`, which is `NaN`, so the new posts are shown with no active slide from the next tick on, and copy then throws a `TypeError` on `postsData[NaN]` | the new posts are shown from the first slide, however long the request takes | not executed; high | Carousel.TickWhileWaitingLosesSlide | Carousel.GenerateStoppingShows |
| script.js:105-108 | the field lookahead ends with `\Z`, which JavaScript reads as the letter `Z`, not as the end of the text, so a field is found only when a line break and `-`, a starred label, `*Post` or `Z` follow it inside the segment | the segment `**Post 1:**\n**Imagem**: A\n**Legenda**: B\n`, where the caption is the last line: the caption pattern finds no terminator and the post gets an empty caption | a field may also end at the segment's final line break | not executed; high | Fields.FieldAtEndIsLost | Fields.FieldAtEndIsKept |
| script.js:195-196 | the copy turns `<br>` back into line breaks but leaves the `&amp;`, `&lt;`, `&gt;` and `&nbsp;` that `sanitizeContent` wrote | an image description `&` is copied as `&amp;` | the clipboard holds the text the reply gave | not executed; high | Clipboard.CopyKeepsReferences | Clipboard.RestoredCopyOfBuiltPost |

=== FILE: carousel.dfy ===
/** The slide carousel (script.js:162-189, 219-260, and the handler at
    script.js:31-51): `currentSlide` is a JavaScript number that the
    buttons, the dots and an 8-second timer move through the slides with
    `%`, and `updateCarousel` marks the slide whose index equals it. With no
    slides on the page, `% 0` yields `NaN`, and `NaN` survives every later
    `+ 1`, `- 1` and `%`. */
module Carousel {
  import opened Options

  /** The value of `currentSlide`: an integer, or `NaN`. */
  datatype Index = At(i: int) | NaN

  /** The state of the carousel: `currentSlide`, the number of
      `.post-slide` elements on the page, the indices of the slides that
      carry the `active` class, and whether the timer is running. */
  datatype Carousel = Carousel(current: Index, slides: nat, active: set<nat>, running: bool)

  /** JavaScript `a % n` on integers: the remainder of the division
      truncated toward zero, so it takes the sign of `a`. */
  function JsRem(a: int, n: nat): (r: int)
    requires n > 0
    ensures (a - r) % n == 0
    ensures a >= 0 ==> 0 <= r < n
    ensures a < 0 ==> 0 < r + n && r <= 0
  {
    var b := if a >= 0 then a else -a;
    RemainderDropped(b, n);
    if a >= 0 then b % n else -(b % n)
  }

  /** Taking away the remainder leaves a multiple of `n`, of either sign. */
  lemma RemainderDropped(b: int, n: int)
    requires n > 0
    ensures (b - b % n) % n == 0 && (b % n - b) % n == 0
  {
    MultipleMod(b / n, n);
    MultipleMod(-(b / n), n);
    assert b - b % n == (b / n) * n;
    assert b % n - b == (-(b / n)) * n;
  }

  /** A multiple of `n` leaves no remainder. */
  lemma MultipleMod(q: int, n: int)
    requires n > 0
    ensures (q * n) % n == 0
  {
    // The remainder is `k * n` and lies in `[0, n)`, so `k` is 0.
    var k := q - (q * n) / n;
    assert k * n == (q * n) % n;
    if k >= 1 {
      assert false;
    } else if k <= -1 {
      assert false;
    }
  }

  /** Within `[0, n)`, and one `n` above it, the remainder is the offset
      into the range. */
  lemma ModOfShifted(b: int, n: int)
    requires n > 0 && 0 <= b < n
    ensures (b + n) % n == b && b % n == b
  {
  }

  /** On a non-negative left operand the two remainders agree. */
  lemma JsRemOfNatural(a: int, n: nat)
    requires n > 0 && a >= 0
    ensures JsRem(a, n) == a % n
  {
  }

  /** `x + d` on a JavaScript number. */
  function Plus(x: Index, d: int): (r: Index)
    ensures r.NaN? <==> x.NaN?
    ensures r.At? ==> r.i - d == x.i
  {
    match x
    case At(i) => At(i + d)
    case NaN => NaN
  }

  /** `x % n` with `n` the number of slides: `NaN` when `x` is `NaN` or
      `n` is zero. */
  function Rem(x: Index, n: nat): (r: Index)
    ensures r.NaN? <==> x.NaN? || n == 0
    ensures r.At? ==> 0 < r.i + n && r.i < n
  {
    if x.NaN? || n == 0 then NaN else At(JsRem(x.i, n))
  }

  /** `i` lies on a slide. */
  predicate OnSlide(x: Index, n: nat) {
    x.At? && 0 <= x.i < n
  }

  /** What `updateCarousel` leaves marked: the slides whose index is
      `===` to `currentSlide`. */
  function Highlight(x: Index, n: nat): (a: set<nat>)
    ensures forall k :: k in a ==> k < n
    ensures OnSlide(x, n) ==> a == {x.i}
    ensures !OnSlide(x, n) ==> a == {}
  {
    set k: nat | k < n && x == At(k)
  }

  /** Exactly one slide is marked after an update if and only if
      `currentSlide` lies on a slide; otherwise none is. */
  lemma OneActiveIffOnSlide(x: Index, n: nat)
    ensures |Highlight(x, n)| == 1 <==> OnSlide(x, n)
    ensures |Highlight(x, n)| <= 1
  {
  }

  /** The carousel is showing a slide: the current index lies on a slide
      and that slide alone is marked. */
  predicate Showing(c: Carousel) {
    OnSlide(c.current, c.slides) && c.active == {c.current.i}
  }

  /** Moving to `x`, then `updateCarousel`, then `resetCarouselInterval`,
      which leaves the timer running. */
  function MoveTo(c: Carousel, x: Index): (r: Carousel)
    ensures r.current == x && r.slides == c.slides && r.running
    ensures Showing(r) <==> OnSlide(x, c.slides)
  {
    Carousel(x, c.slides, Highlight(x, c.slides), true)
  }

  /** `showNextSlide`: `(currentSlide + 1) % slides.length`. From a slide it
      moves to the following one, wrapping from the last to the first; from
      `NaN`, or with no slides, it gives `NaN`. */
  function ShowNext(c: Carousel): (r: Carousel)
    ensures r.slides == c.slides && r.running
    ensures OnSlide(c.current, c.slides) ==>
              Showing(r) && r.current.i == (if c.current.i == c.slides - 1 then 0 else c.current.i + 1)
    ensures c.current.NaN? || c.slides == 0 ==> r.current.NaN? && r.active == {}
  {
    StepForward(c.current, c.slides);
    MoveTo(c, Rem(Plus(c.current, 1), c.slides))
  }

  /** One step forward from a slide, with the JavaScript remainder. */
  lemma StepForward(x: Index, n: nat)
    ensures OnSlide(x, n) ==> Rem(Plus(x, 1), n) == At(if x.i == n - 1 then 0 else x.i + 1)
  {
    if OnSlide(x, n) {
      JsRemOfNatural(x.i + 1, n);
      if x.i == n - 1 {
        ModOfShifted(0, n);
      } else {
        ModOfShifted(x.i + 1, n);
      }
    }
  }

  /** One step back from a slide, with the JavaScript remainder. */
  lemma StepBack(x: Index, n: nat)
    ensures OnSlide(x, n) ==> Rem(Plus(Plus(x, -1), n), n) == At(if x.i == 0 then n - 1 else x.i - 1)
  {
    if OnSlide(x, n) {
      JsRemOfNatural(x.i - 1 + n, n);
      if x.i == 0 {
        ModOfShifted(n - 1, n);
      } else {
        ModOfShifted(x.i - 1, n);
      }
    }
  }

  /** `showPreviousSlide`: `(currentSlide - 1 + slides.length) %
      slides.length`. From a slide it moves to the one before, wrapping
      from the first to the last; from `NaN`, or with no slides, it gives
      `NaN`. */
  function ShowPrevious(c: Carousel): (r: Carousel)
    ensures r.slides == c.slides && r.running
    ensures OnSlide(c.current, c.slides) ==>
              Showing(r) && r.current.i == (if c.current.i == 0 then c.slides - 1 else c.current.i - 1)
    ensures c.current.NaN? || c.slides == 0 ==> r.current.NaN? && r.active == {}
  {
    StepBack(c.current, c.slides);
    MoveTo(c, Rem(Plus(Plus(c.current, -1), c.slides), c.slides))
  }

  /** `goToSlide(index)`: the index is taken as it is; from any state,
      `NaN` included, a dot's index puts the carousel back on that slide. */
  function GoTo(c: Carousel, index: int): (r: Carousel)
    ensures r.current == At(index) && r.slides == c.slides && r.running
    ensures Showing(r) <==> 0 <= index < c.slides
  {
    MoveTo(c, At(index))
  }

  /** A tick of the `setInterval(showNextSlide, 8000)` timer. */
  function Tick(c: Carousel): (r: Carousel)
    ensures !c.running ==> r == c
    ensures r.slides == c.slides && r.running == c.running
    ensures c.running && OnSlide(c.current, c.slides) ==>
              Showing(r) && r.current.i == (if c.current.i == c.slides - 1 then 0 else c.current.i + 1)
    ensures c.running && (c.current.NaN? || c.slides == 0) ==> r.current.NaN? && !Showing(r)
  {
    if c.running then ShowNext(c) else c
  }

  /** `k` ticks of the timer. */
  function Ticks(c: Carousel, k: nat): Carousel
    decreases k
  {
    if k == 0 then c else Ticks(Tick(c), k - 1)
  }

  /** `clearCarousel`: the slides are removed and `currentSlide` is reset
      to 0; the timer is not stopped. */
  function Clear(c: Carousel): (r: Carousel)
    ensures r.current == At(0) && !Showing(r) && r.running == c.running
    ensures forall n: nat :: n > 0 ==> Showing(Render(r, n))
  {
    Carousel(At(0), 0, {}, c.running)
  }

  /** `renderCarousel(posts)`: one slide per post, the first one marked;
      `currentSlide` is left as it was. */
  function Render(c: Carousel, count: nat): (r: Carousel)
    ensures r.slides == count && r.current == c.current && r.running == c.running
    ensures Showing(r) <==> c.current == At(0) && count > 0
    ensures |r.active| <= 1
  {
    Carousel(c.current, count, if count > 0 then {0} else {}, c.running)
  }

  /** `startCarousel`. */
  function Start(c: Carousel): (r: Carousel)
    ensures r.running && r.current == c.current && r.slides == c.slides
    ensures Showing(r) <==> Showing(c)
    ensures Tick(r) == ShowNext(r)
  {
    c.(running := true)
  }

  /** `renderFallbackContent`: a single marked slide with the error
      message; `currentSlide` is left as it was. */
  function Fallback(c: Carousel): (r: Carousel)
    ensures r.slides == 1 && r.current == c.current && r.running == c.running
    ensures Showing(r) <==> c.current == At(0)
  {
    c.(slides := 1, active := {0})
  }

  /** One click on the generate button with a valid theme: the carousel is
      cleared, the timer ticks `waiting` times while the request is out,
      and then either `posts` posts arrive (`Some`) or the request fails
      (`None`). */
  function Generate(c: Carousel, waiting: nat, posts: Option<nat>): (r: Carousel)
    ensures posts.Some? ==> r.slides == posts.value && r.running
    ensures posts.None? ==> r.slides == 1
  {
    var waited := Ticks(Clear(c), waiting);
    match posts
    case Some(n) => Start(Render(waited, n))
    case None => Fallback(waited)
  }

  /** On a slide, next and previous are `(i + 1) mod n` and
      `(i - 1 + n) mod n`, both on a slide again, and clearing goes back
      to index 0. */
  lemma IndexArithmetic(c: Carousel)
    requires OnSlide(c.current, c.slides)
    ensures ShowNext(c).current == At((c.current.i + 1) % c.slides)
    ensures ShowPrevious(c).current == At((c.current.i - 1 + c.slides) % c.slides)
    ensures OnSlide(ShowNext(c).current, c.slides) && OnSlide(ShowPrevious(c).current, c.slides)
    ensures Clear(c).current == At(0)
  {
    JsRemOfNatural(c.current.i + 1, c.slides);
    JsRemOfNatural(c.current.i - 1 + c.slides, c.slides);
  }

  /** The buttons and dots keep the carousel showing a slide once it is. */
  lemma MovesKeepShowing(c: Carousel, index: int)
    requires Showing(c)
    ensures Showing(ShowNext(c)) && Showing(ShowPrevious(c)) && Showing(Tick(c))
    ensures Showing(GoTo(c, index)) <==> 0 <= index < c.slides
  {
  }

  /** Previous undoes next, and next undoes previous. */
  lemma NextPreviousInverse(c: Carousel)
    requires Showing(c)
    ensures ShowPrevious(ShowNext(c)).current == c.current
    ensures ShowNext(ShowPrevious(c)).current == c.current
  {
  }

  /** `k` presses of next. */
  function NextN(c: Carousel, k: nat): (r: Carousel)
    ensures r.slides == c.slides
  {
    if k == 0 then c else ShowNext(NextN(c, k - 1))
  }

  /** Presses of next that stay before the end move forward one slide
      each. */
  lemma {:induction false} NextSteps(c: Carousel, k: nat)
    requires OnSlide(c.current, c.slides) && c.current.i + k < c.slides
    ensures NextN(c, k).current == At(c.current.i + k)
    decreases k
  {
    if k > 0 {
      NextSteps(c, k - 1);
    }
  }

  lemma {:induction false} NextNSplit(c: Carousel, a: nat, b: nat)
    ensures NextN(c, a + b) == NextN(NextN(c, a), b)
    decreases b
  {
    if b > 0 {
      NextNSplit(c, a, b - 1);
    }
  }

  /** Next from the last slide goes to the first. */
  lemma WrapAround(c: Carousel)
    requires OnSlide(c.current, c.slides) && c.current.i == c.slides - 1
    ensures NextN(c, 1).current == At(0)
  {
    assert NextN(c, 0) == c;
    var r := ShowNext(c);
    assert r.current.i == 0;
  }

  /** Pressing next as many times as there are slides comes back to the
      slide it started from: up to the last slide, round to the first, and
      on to the start. */
  lemma FullCycle(c: Carousel)
    requires OnSlide(c.current, c.slides)
    ensures NextN(c, c.slides).current == c.current
  {
    var i, n := c.current.i, c.slides;
    var toLast := NextN(c, n - 1 - i);
    assert toLast.current == At(n - 1) by {
      NextSteps(c, n - 1 - i);
    }
    var atFirst := NextN(toLast, 1);
    WrapAround(toLast);
    assert NextN(atFirst, i).current == At(i) by {
      NextSteps(atFirst, i);
    }
    assert NextN(c, n) == NextN(atFirst, i) by {
      NextNSplit(c, n - 1 - i, 1 + i);
      NextNSplit(toLast, 1, i);
    }
  }

  /** Once `currentSlide` is `NaN`, no number of timer ticks, nor a new
      set of slides, brings it back. */
  lemma {:induction false} NaNPersists(c: Carousel, k: nat, count: nat)
    requires c.current.NaN?
    ensures Ticks(c, k).current.NaN?
    ensures Render(Ticks(c, k), count).current.NaN?
    ensures Ticks(c, k).active == {} || Ticks(c, k).active == c.active
    decreases k
  {
    if k > 0 {
      NaNPersists(Tick(c), k - 1, count);
    }
  }

  /** A dot click is the only move that recovers from `NaN`. */
  lemma GoToRecovers(c: Carousel, index: int)
    requires c.current.NaN? && 0 <= index < c.slides
    ensures Showing(GoTo(c, index))
    ensures !Showing(ShowNext(c)) && !Showing(ShowPrevious(c))
  {
  }

  /** With the timer stopped, ticks change nothing. */
  lemma {:induction false} StoppedTicks(c: Carousel, k: nat)
    requires !c.running
    ensures Ticks(c, k) == c
    decreases k
  {
    if k > 0 {
      StoppedTicks(Tick(c), k - 1);
    }
  }

  /** As written: when the timer of an earlier carousel fires while a new
      request is out, the empty carousel turns `currentSlide` into `NaN`.
      The new posts are then rendered with the first one marked, but every
      later tick unmarks it, and no slide is ever marked again until a dot
      is clicked. */
  lemma TickWhileWaitingLosesSlide(c: Carousel, waiting: nat, n: nat, later: nat)
    requires c.running && waiting > 0 && n > 0
    ensures Generate(c, waiting, Some(n)).current.NaN?
    ensures !Showing(Generate(c, waiting, Some(n)))
    ensures later > 0 ==> Ticks(Generate(c, waiting, Some(n)), later).active == {}
  {
    var first := Tick(Clear(c));
    assert first.current.NaN? && first.active == {};
    NaNPersists(first, waiting - 1, n);
    assert Ticks(Clear(c), waiting) == Ticks(first, waiting - 1);
    var g := Generate(c, waiting, Some(n));
    if later > 0 {
      NaNPersists(Tick(g), later - 1, n);
    }
  }

  /** The same reply with no tick in between is shown from its first
      slide, as intended. */
  lemma GenerateWithoutTickShows(c: Carousel, n: nat)
    requires n > 0
    ensures Showing(Generate(c, 0, Some(n))) && Generate(c, 0, Some(n)).current == At(0)
  {
  }

  /** `clearCarousel` as evidently intended: it also stops the timer of
      the previous carousel, as `startCarousel` does before starting a
      new one. */
  function ClearStopping(c: Carousel): (r: Carousel)
    ensures r.current == At(0) && !Showing(r) && !r.running
    ensures Tick(r) == r
    ensures forall n: nat :: n > 0 ==> Showing(Start(Render(r, n)))
  {
    Carousel(At(0), 0, {}, false)
  }

  /** The generate click with the corrected clear. */
  function GenerateStopping(c: Carousel, waiting: nat, posts: Option<nat>): Carousel {
    var waited := Ticks(ClearStopping(c), waiting);
    match posts
    case Some(n) => Start(Render(waited, n))
    case None => Fallback(waited)
  }

  /** With the corrected clear, however long the request takes, a reply
      with posts is shown from its first slide and an error from the
      fallback slide; MovesKeepShowing shows that later moves keep it so. */
  lemma GenerateStoppingShows(c: Carousel, waiting: nat, posts: Option<nat>)
    requires posts.Some? ==> posts.value > 0
    ensures Showing(GenerateStopping(c, waiting, posts))
    ensures GenerateStopping(c, waiting, posts).current == At(0)
  {
    StoppedTicks(ClearStopping(c), waiting);
  }
}

=== FILE: clipboard.dfy ===
/** `copyCurrentSlide` (script.js:191-197): the text put on the clipboard
    for the post under `currentSlide`. Each stored field is the sanitiser's
    output; the copy turns every `<br>` back into a line break (a space for
    the hashtags) with `.replace(/<br>/g, …)` and leaves everything else of
    the HTML as it is. The three headings are stored in script.js as the Mac
    Roman reading of their UTF-8 bytes and are modelled as written. */
module Clipboard {
  import Sanitize
  import Parser
  import Carousel
  import Options
  import Hashtags
  import Fields

  const ImageHeading: string :=
    "\U{F8FF}\U{00FC}\U{00EC}\U{2211} Descri\U{221A}\U{00DF}\U{221A}\U{00A3}o da Imagem:\n"
  const CaptionHeading: string := "\U{201A}\U{00FA}\U{00E7}\U{00D4}\U{220F}\U{00E8} Legenda:\n"
  const HashtagsHeading: string := "\U{F8FF}\U{00FC}\U{00E8}\U{2211}\U{00D4}\U{220F}\U{00E8} Hashtags: "

  /** `s.replace(/<br>/g, sub)`: left to right, each `<br>` is replaced and
      the scan resumes after it. */
  function ReplaceBreaks(s: string, sub: string): string
    decreases |s|
  {
    if s == [] then []
    else if "<br>" <= s then sub + ReplaceBreaks(s[4..], sub)
    else [s[0]] + ReplaceBreaks(s[1..], sub)
  }

  predicate NoAngle(s: string) {
    forall k :: 0 <= k < |s| ==> s[k] != '<'
  }

  /** Text without `<` passes through the replacement unchanged, whatever
      follows it. */
  lemma {:induction false} ReplaceBreaksSkipsPlain(p: string, rest: string, sub: string)
    requires NoAngle(p)
    ensures ReplaceBreaks(p + rest, sub) == p + ReplaceBreaks(rest, sub)
    decreases |p|
  {
    if p == [] {
      assert p + rest == rest;
    } else {
      var s := p + rest;
      assert s[0] == p[0] && s[0] != '<';
      assert s[1..] == p[1..] + rest;
      ReplaceBreaksSkipsPlain(p[1..], rest, sub);
      assert [p[0]] + p[1..] == p;
    }
  }

  /** Reference definition: what the copy makes of the sanitised form of
      `s`, one input character at a time. A line break comes back as `sub`;
      every other character stays in its serialised form. */
  function Restore(s: string, sub: string): string {
    if s == [] then [] else (if s[0] == '\n' then sub else Sanitize.EscapeChar(s[0])) + Restore(s[1..], sub)
  }

  /** Replacing `<br>` in one unit of the sanitiser's output. */
  lemma ReplaceBreaksUnit(c: char, rest: string, sub: string)
    ensures ReplaceBreaks(Sanitize.Unit(c) + rest, sub)
            == (if c == '\n' then sub else Sanitize.EscapeChar(c)) + ReplaceBreaks(rest, sub)
  {
    if c == '\n' {
      var s := "<br>" + rest;
      assert "<br>" <= s && s[4..] == rest;
    } else {
      ReplaceBreaksSkipsPlain(Sanitize.EscapeChar(c), rest, sub);
    }
  }

  /** The replacement undoes the line-break pass of the sanitiser and
      nothing else: it yields the reference `Restore`. */
  lemma {:induction false} ReplaceBreaksOfUnits(s: string, sub: string)
    ensures ReplaceBreaks(Sanitize.Units(s), sub) == Restore(s, sub)
    decreases |s|
  {
    if s != [] {
      ReplaceBreaksUnit(s[0], Sanitize.Units(s[1..]), sub);
      ReplaceBreaksOfUnits(s[1..], sub);
    }
  }

  /** With line breaks put back, the copy is the serialised input. */
  lemma {:induction false} RestoreLines(s: string)
    ensures Restore(s, "\n") == Sanitize.SerializeText(s)
    decreases |s|
  {
    if s != [] {
      RestoreLines(s[1..]);
    }
  }

  /** Without line breaks in the input, the replacement string plays no
      part: the copy is the sanitiser's output itself. */
  lemma {:induction false} RestoreWithoutLines(s: string, sub: string)
    requires Sanitize.NoNewline(s)
    ensures Restore(s, sub) == Sanitize.Units(s)
    decreases |s|
  {
    if s != [] {
      RestoreWithoutLines(s[1..], sub);
    }
  }

  /** The copy of a sanitised image description or caption text is the
      original text with `&`, U+00A0, `<` and `>` still written as
      character references: only the line breaks are restored. */
  lemma CopiedText(s: string)
    ensures ReplaceBreaks(Sanitize.Sanitize(s), "\n") == Sanitize.SerializeText(s)
  {
    Sanitize.TwoPassesAreUnitwise(s);
    ReplaceBreaksOfUnits(s, "\n");
    RestoreLines(s);
  }

  /** The copy of sanitised hashtags, which hold no line break, is the
      sanitiser's output unchanged. */
  lemma CopiedHashtags(h: string)
    requires Sanitize.NoNewline(h)
    ensures ReplaceBreaks(Sanitize.Sanitize(h), " ") == Sanitize.Sanitize(h)
  {
    Sanitize.TwoPassesAreUnitwise(h);
    ReplaceBreaksOfUnits(h, " ");
    RestoreWithoutLines(h, " ");
  }

  /** A text without `&`, U+00A0, `<` and `>` is copied exactly as it was
      before sanitising, line breaks included. */
  lemma CopiedPlainText(s: string)
    requires forall k :: 0 <= k < |s| ==> s[k] != '&' && s[k] != Sanitize.Nbsp && s[k] != '<' && s[k] != '>'
    ensures ReplaceBreaks(Sanitize.Sanitize(s), "\n") == s
  {
    CopiedText(s);
    SerializePlain(s);
  }

  lemma {:induction false} SerializePlain(s: string)
    requires forall k :: 0 <= k < |s| ==> s[k] != '&' && s[k] != Sanitize.Nbsp && s[k] != '<' && s[k] != '>'
    ensures Sanitize.SerializeText(s) == s
    decreases |s|
  {
    if s != [] {
      SerializePlain(s[1..]);
      assert [s[0]] + s[1..] == s;
    }
  }

  /** A text without `<` is left as it is. */
  lemma ReplaceBreaksOfPlain(s: string, sub: string)
    ensures NoAngle(s) ==> ReplaceBreaks(s, sub) == s
  {
    if NoAngle(s) {
      ReplaceBreaksSkipsPlain(s, [], sub);
      assert s + [] == s;
    }
  }

  /** The clipboard text for one post, as script.js:195-197 builds it: the
      three headings, each followed by its field, and fields without `<`
      copied exactly as the post holds them. */
  function ClipboardText(post: Parser.Post): (r: string)
    ensures ImageHeading <= r
    ensures NoAngle(post.imageDescription) && NoAngle(post.caption.text) && NoAngle(post.caption.hashtags) ==>
              r == ImageHeading + post.imageDescription + "\n\n"
                   + CaptionHeading + post.caption.text + "\n\n"
                   + HashtagsHeading + post.caption.hashtags
  {
    ReplaceBreaksOfPlain(post.imageDescription, "\n");
    ReplaceBreaksOfPlain(post.caption.text, "\n");
    ReplaceBreaksOfPlain(post.caption.hashtags, " ");
    HeadingComesFirst(ReplaceBreaks(post.imageDescription, "\n"), ReplaceBreaks(post.caption.text, "\n"),
                      ReplaceBreaks(post.caption.hashtags, " "));
    ImageHeading + ReplaceBreaks(post.imageDescription, "\n") + "\n\n"
    + CaptionHeading + ReplaceBreaks(post.caption.text, "\n") + "\n\n"
    + HashtagsHeading + ReplaceBreaks(post.caption.hashtags, " ")
  }

  /** Appending keeps a prefix. */
  lemma PrefixOfAppend(p: string, s: string, t: string)
    requires p <= s
    ensures p <= s + t
  {
    assert (s + t)[..|s|] == s;
  }

  /** The clipboard text starts with the image heading, whatever the fields. */
  lemma HeadingComesFirst(a: string, b: string, c: string)
    ensures ImageHeading <= ImageHeading + a + "\n\n" + CaptionHeading + b + "\n\n" + HashtagsHeading + c
  {
    var r1 := ImageHeading + a;
    PrefixOfAppend(ImageHeading, ImageHeading, a);
    var r2 := r1 + "\n\n";
    PrefixOfAppend(ImageHeading, r1, "\n\n");
    var r3 := r2 + CaptionHeading;
    PrefixOfAppend(ImageHeading, r2, CaptionHeading);
    var r4 := r3 + b;
    PrefixOfAppend(ImageHeading, r3, b);
    var r5 := r4 + "\n\n";
    PrefixOfAppend(ImageHeading, r4, "\n\n");
    var r6 := r5 + HashtagsHeading;
    PrefixOfAppend(ImageHeading, r5, HashtagsHeading);
    PrefixOfAppend(ImageHeading, r6, c);
  }

  /** The clipboard text of a post whose fields were sanitised from `a`,
      `b` and the hashtags `h`: the headings with the serialised fields. */
  lemma ClipboardOfFields(id: nat, a: string, b: string, h: string)
    requires Sanitize.NoNewline(h)
    ensures ClipboardText(Parser.Post(id, Sanitize.Sanitize(a), Parser.Caption(Sanitize.Sanitize(b), Sanitize.Sanitize(h))))
            == ImageHeading + Sanitize.SerializeText(a) + "\n\n"
               + CaptionHeading + Sanitize.SerializeText(b) + "\n\n"
               + HashtagsHeading + Sanitize.Sanitize(h)
  {
    CopiedText(a);
    CopiedText(b);
    CopiedHashtags(h);
  }

  /** The copy keeps the character references: an image description `&`
      reaches the clipboard as `&amp;`. */
  lemma CopyKeepsReferences()
    ensures ReplaceBreaks(Sanitize.Sanitize("&"), "\n") == "&amp;"
  {
    CopiedText("&");
    assert Sanitize.SerializeText("&") == "&amp;" + Sanitize.SerializeText([]);
  }

  /** The evidently intended clipboard text: each field read back as HTML,
      so that `<br>` gives a line break and a character reference gives its
      character; the hashtags have their `<br>` turned into spaces first. */
  function RestoredClipboardText(post: Parser.Post): string {
    ImageHeading + Sanitize.Unescape(post.imageDescription) + "\n\n"
    + CaptionHeading + Sanitize.Unescape(post.caption.text) + "\n\n"
    + HashtagsHeading + Sanitize.Unescape(ReplaceBreaks(post.caption.hashtags, " "))
  }

  /** The intended copy gives back exactly the texts that were sanitised. */
  lemma RestoredClipboardOfFields(id: nat, a: string, b: string, h: string)
    requires Sanitize.NoNewline(h)
    ensures RestoredClipboardText(Parser.Post(id, Sanitize.Sanitize(a), Parser.Caption(Sanitize.Sanitize(b), Sanitize.Sanitize(h))))
            == ImageHeading + a + "\n\n" + CaptionHeading + b + "\n\n" + HashtagsHeading + h
  {
    CopiedHashtags(h);
  }

  /** Joined hashtags hold no line break: no tag character is one. */
  lemma {:induction false} JoinedTagsHaveNoNewline(ts: seq<string>)
    requires forall k :: 0 <= k < |ts| ==> Hashtags.IsTag(ts[k])
    ensures Sanitize.NoNewline(Hashtags.Join(ts, " "))
    decreases |ts|
  {
    if |ts| > 1 {
      JoinedTagsHaveNoNewline(ts[1..]);
      var t := ts[0];
      assert Hashtags.IsTag(t);
      assert forall k :: 0 <= k < |t| ==> t[k] != '\n';
    } else if |ts| == 1 {
      assert Hashtags.IsTag(ts[0]);
    }
  }

  /** The hashtags `formatCaption` collects hold no line break. */
  lemma HashtagsHaveNoNewline(caption: string)
    ensures Sanitize.NoNewline(Hashtags.SplitCaption(caption).hashtags)
  {
    JoinedTagsHaveNoNewline(Hashtags.SplitTags(caption).tags);
  }

  /** What the reply said in the field `f` of a segment: group 1 of the
      field's match, or nothing when it does not match. */
  function FieldText(segment: string, f: Fields.Field): string {
    if Fields.Find(segment, f, Fields.LetterZ).Some? then Fields.Extract(segment, f, Fields.LetterZ) else ""
  }

  /** The clipboard text of a parsed post: the image description and the
      caption text as the reply wrote them but in serialised form, and the
      hashtags as `formatCaption` stored them. */
  lemma CopyOfBuiltPost(segment: string, id: nat)
    ensures var raw := Hashtags.SplitCaption(FieldText(segment, Fields.Caption));
            ClipboardText(Parser.BuildPost(segment, id))
            == ImageHeading + Sanitize.SerializeText(FieldText(segment, Fields.Image)) + "\n\n"
               + CaptionHeading + Sanitize.SerializeText(raw.text) + "\n\n"
               + HashtagsHeading + Sanitize.Sanitize(raw.hashtags)
  {
    BuiltPostFields(segment, id);
    var raw := Hashtags.SplitCaption(FieldText(segment, Fields.Caption));
    HashtagsHaveNoNewline(FieldText(segment, Fields.Caption));
    ClipboardOfFields(id, FieldText(segment, Fields.Image), raw.text, raw.hashtags);
  }

  /** The intended copy of a parsed post gives back the image description
      and the caption text as the reply wrote them, and the hashtags. */
  lemma RestoredCopyOfBuiltPost(segment: string, id: nat)
    ensures var raw := Hashtags.SplitCaption(FieldText(segment, Fields.Caption));
            RestoredClipboardText(Parser.BuildPost(segment, id))
            == ImageHeading + FieldText(segment, Fields.Image) + "\n\n"
               + CaptionHeading + raw.text + "\n\n" + HashtagsHeading + raw.hashtags
  {
    BuiltPostFields(segment, id);
    var raw := Hashtags.SplitCaption(FieldText(segment, Fields.Caption));
    HashtagsHaveNoNewline(FieldText(segment, Fields.Caption));
    RestoredClipboardOfFields(id, FieldText(segment, Fields.Image), raw.text, raw.hashtags);
  }

  /** A built post is the sanitised field texts. */
  lemma BuiltPostFields(segment: string, id: nat)
    ensures var raw := Hashtags.SplitCaption(FieldText(segment, Fields.Caption));
            Parser.BuildPost(segment, id)
            == Parser.Post(id, Sanitize.Sanitize(FieldText(segment, Fields.Image)),
                           Parser.Caption(Sanitize.Sanitize(raw.text), Sanitize.Sanitize(raw.hashtags)))
  {
    assert Sanitize.Sanitize("") == "" by {
      Sanitize.SanitizeKeepsPlainText("");
    }
  }

  /** What the copy button does. */
  datatype CopyResult =
    | NothingToCopy      // `postsData.length === 0`: the function returns
    | NoPostAtIndex      // `postsData[currentSlide]` is `undefined`: a TypeError
    | Copied(text: string)

  /** `copyCurrentSlide` with `postsData` and `currentSlide`: nothing
      without posts, a TypeError when `currentSlide` is `NaN` or names no
      post, and otherwise the clipboard text of the post it names. */
  function CopyCurrent(posts: seq<Parser.Post>, current: Carousel.Index): (r: CopyResult)
    ensures r.NothingToCopy? <==> |posts| == 0
    ensures r.NoPostAtIndex? <==> |posts| > 0 && !Carousel.OnSlide(current, |posts|)
    ensures r.Copied? ==> Carousel.OnSlide(current, |posts|) && r.text == ClipboardText(posts[current.i])
  {
    if |posts| == 0 then NothingToCopy
    else if current.NaN? || current.i < 0 || current.i >= |posts| then NoPostAtIndex
    else Copied(ClipboardText(posts[current.i]))
  }

  /** A carousel showing one slide per post always has a post to copy: the
      one on show. */
  lemma CopyWhileShowing(posts: seq<Parser.Post>, c: Carousel.Carousel)
    requires Carousel.Showing(c) && c.slides == |posts|
    ensures CopyCurrent(posts, c.current) == Copied(ClipboardText(posts[c.current.i]))
  {
  }

  /** As written, after a timer tick while the request was out the copy
      button, shown again with the new posts, throws instead of copying. */
  lemma CopyAfterLostSlide(posts: seq<Parser.Post>, c: Carousel.Carousel, waiting: nat)
    requires c.running && waiting > 0 && |posts| > 0
    ensures CopyCurrent(posts, Carousel.Generate(c, waiting, Options.Some(|posts|)).current) == NoPostAtIndex
  {
    Carousel.TickWhileWaitingLosesSlide(c, waiting, |posts|, 0);
  }

  /** With the corrected clear, the copy button copies the first post. */
  lemma CopyAfterStoppingClear(posts: seq<Parser.Post>, c: Carousel.Carousel, waiting: nat)
    requires |posts| > 0
    ensures CopyCurrent(posts, Carousel.GenerateStopping(c, waiting, Options.Some(|posts|)).current)
            == Copied(ClipboardText(posts[0]))
  {
    Carousel.GenerateStoppingShows(c, waiting, Options.Some(|posts|));
  }
}

=== FILE: fields.dfy ===
/** Extraction of the two labelled fields of a post segment
    (script.js:105-109). Both use the same `/i` regular expression shape

      (?:\*\*?LABEL\*\*?:?)\s*(?:\*\*|\*\*\*|["‚Äú])?([\s\S]*?)(?=\n(?:-|\*\*?OTHER|\*\*?Post|\Z))

    with LABEL/OTHER = Imagem/Legenda for the image description and
    Legenda/Imagem for the caption. `String.prototype.match` without `g`
    returns the first match found by the backtracking engine: the leftmost
    start position, and at that position the first success in the order the
    engine tries its choices. Inside a JavaScript pattern `\Z` is not an
    anchor but an identity escape for the letter `Z` (and `z`, under `i`),
    and the lookahead sees only the segment, so a field that is not followed
    by a line break and one of the listed continuations does not match.
    The members that depend on the lookahead take a `ZReading`: `LetterZ`
    is the pattern as JavaScript runs it, `EndOfText` the reading under
    which a field may end its segment. */
module Fields {
  import opened JsText
  import opened Options

  datatype Field = Image | Caption

  /** The label the pattern for `f` looks for. */
  function Label(f: Field): string {
    match f
    case Image => "Imagem"
    case Caption => "Legenda"
  }

  /** The other label, which ends the field in the lookahead. */
  function Other(f: Field): string {
    match f
    case Image => "Legenda"
    case Caption => "Imagem"
  }

  /** The opener class `["‚Äú]` as written in script.js:105 (the Mac Roman
      reading of the UTF-8 bytes of a curly quote): `"`, U+201A, U+00C4 and
      U+00FA, plus U+00E4 and U+00DA, which the `i` flag folds onto U+00C4
      and U+00FA. */
  predicate IsOpenerChar(c: char) {
    || c == '"' || c == '\U{201A}' || c == '\U{00C4}' || c == '\U{00FA}'
    || c == '\U{00E4}' || c == '\U{00DA}'
  }

  /** `\*\*?w` matches at `i`, ignoring ASCII case in `w`. */
  predicate StarredWordAt(s: string, i: nat, w: string) {
    && i < |s| && s[i] == '*'
    && (MatchesIgnoringCase(s, i + 1, w) || (i + 1 < |s| && s[i + 1] == '*' && MatchesIgnoringCase(s, i + 2, w)))
  }

  /** The label word of `f` sits at `w` with a `*` directly on each side: the
      shortest text `\*\*?LABEL\*\*?` accepts. */
  predicate StarredLabelAt(s: string, w: nat, f: Field) {
    && 1 <= w && w + |Label(f)| < |s|
    && s[w - 1] == '*'
    && MatchesIgnoringCase(s, w, Label(f))
    && s[w + |Label(f)|] == '*'
  }

  /** No starred label of `f` starts before `w`. */
  predicate NoLabelBefore(s: string, w: nat, f: Field) {
    forall v: nat :: v < w ==> !StarredLabelAt(s, v, f)
  }

  /** How `\Z` in the lookahead is read. JavaScript reads it as the
      letter `Z` (or `z`, under `i`); the reading that lets a field end the
      segment is the end of the text, which `\Z` means in other dialects. */
  datatype ZReading = LetterZ | EndOfText

  /** The lookahead `(?=\n(?:-|\*\*?OTHER|\*\*?Post|\Z))` succeeds at `q`. */
  predicate TerminatorAt(s: string, q: nat, f: Field, z: ZReading) {
    && q < |s| && s[q] == '\n'
    && if q + 1 < |s| then
         || s[q + 1] == '-'
         || StarredWordAt(s, q + 1, Other(f))
         || StarredWordAt(s, q + 1, "Post")
         || (z == LetterZ && UpperAscii(s[q + 1]) == 'Z')
       else z == EndOfText
  }

  predicate NoTerminatorIn(s: string, a: nat, b: nat, f: Field, z: ZReading) {
    forall k: nat :: a <= k < b ==> !TerminatorAt(s, k, f, z)
  }

  /** Where the lazy `([\s\S]*?)` started at `c` stops: the first position
      from `c` on at which the lookahead succeeds. */
  function NextTerminator(s: string, c: nat, f: Field, z: ZReading): (m: Option<nat>)
    requires c <= |s|
    ensures m.Some? ==> c <= m.value < |s| && TerminatorAt(s, m.value, f, z) && NoTerminatorIn(s, c, m.value, f, z)
    ensures m.None? ==> forall k: nat :: c <= k ==> !TerminatorAt(s, k, f, z)
    decreases |s| - c
  {
    if c == |s| then None
    else if TerminatorAt(s, c, f, z) then Some(c)
    else NextTerminator(s, c + 1, f, z)
  }

  /** The pieces of the pattern in front of the capture group. */
  datatype Atom = Stars | Word(w: string) | Colon | Spaces | Opener

  /** `\*\*?`, `LABEL`, `\*\*?`, `:?`, `\s*` and `(?:\*\*|\*\*\*|["‚Äú])?`,
      in pattern order. */
  function LabelPrefix(f: Field): seq<Atom> {
    [Stars, Word(Label(f)), Stars, Colon, Spaces, Opener]
  }

  /** `\*\*?` from `i`: two stars before one. */
  function StarsEnds(s: string, i: nat): (r: seq<nat>)
    requires i <= |s|
    ensures forall y :: y in r ==> i < |s| && s[i] == '*' && i < y <= i + 2 && y <= |s| && s[y - 1] == '*'
    ensures i < |s| && s[i] == '*' ==> i + 1 in r
    ensures i + 1 < |s| && s[i] == '*' && s[i + 1] == '*' ==> r == [i + 2, i + 1]
    ensures i < |s| && s[i] == '*' && (i + 1 == |s| || s[i + 1] != '*') ==> r == [i + 1]
  {
    if i < |s| && s[i] == '*' then
      (if i + 1 < |s| && s[i + 1] == '*' then [i + 2, i + 1] else [i + 1])
    else []
  }

  /** A literal word under the `i` flag. */
  function WordEnds(s: string, i: nat, w: string): (r: seq<nat>)
    ensures forall y :: y in r ==> y == i + |w| && MatchesIgnoringCase(s, i, w)
    ensures MatchesIgnoringCase(s, i, w) ==> i + |w| in r
  {
    if MatchesIgnoringCase(s, i, w) then [i + |w|] else []
  }

  /** `:?`: with the colon first. */
  function ColonEnds(s: string, i: nat): (r: seq<nat>)
    ensures i in r
    ensures forall y :: y in r ==> i <= y <= i + 1
    ensures i < |s| && s[i] == ':' ==> r == [i + 1, i]
    ensures !(i < |s| && s[i] == ':') ==> r == [i]
  {
    if i < |s| && s[i] == ':' then [i + 1, i] else [i]
  }

  /** `\s*`: the whole run of white space first, then one less, down to none. */
  function SpacesEnds(s: string, i: nat): (r: seq<nat>)
    requires i <= |s|
    ensures i in r
    ensures forall y :: y in r ==> i <= y <= |s|
    ensures |r| > 0 && r[|r| - 1] == i && r[0] <= |s|
    ensures forall k :: i <= k < r[0] ==> IsJsSpace(s[k])
    ensures r[0] == |s| || !IsJsSpace(s[r[0]])
    ensures forall k :: 0 <= k < |r| ==> r[k] + k == r[0]
  {
    var j := RunEnd(s, i, IsJsSpace);
    var r := seq(j - i + 1, k requires 0 <= k <= j - i => j - k);
    assert r[j - i] == i;
    r
  }

  /** `(?:\*\*|\*\*\*|["‚Äú])?`: the alternatives in source order, then none. */
  function OpenerEnds(s: string, i: nat): (r: seq<nat>)
    requires i <= |s|
    ensures i in r
    ensures forall y :: y in r ==> i <= y <= |s|
    ensures i + 3 <= |s| && s[i] == '*' && s[i + 1] == '*' && s[i + 2] == '*' ==> r == [i + 2, i + 3, i]
    ensures i + 2 <= |s| && s[i] == '*' && s[i + 1] == '*' && (i + 2 == |s| || s[i + 2] != '*') ==> r == [i + 2, i]
    ensures i < |s| && IsOpenerChar(s[i]) ==> r == [i + 1, i]
    ensures (i == |s| || (!IsOpenerChar(s[i]) && !(i + 2 <= |s| && s[i] == '*' && s[i + 1] == '*'))) ==> r == [i]
  {
    (if i + 2 <= |s| && s[i..i + 2] == "**" then [i + 2] else [])
    + (if i + 3 <= |s| && s[i..i + 3] == "***" then [i + 3] else [])
    + (if i < |s| && IsOpenerChar(s[i]) then [i + 1] else [])
    + [i]
  }

  /** The positions at which `atom` can end when it starts at `i`, in the
      order the engine tries them: greedy quantifiers longest first,
      alternatives in source order, the empty alternative of `?` last. */
  function Ends(s: string, atom: Atom, i: nat): (r: seq<nat>)
    requires i <= |s|
    ensures forall k :: 0 <= k < |r| ==> i <= r[k] <= |s|
  {
    match atom
    case Stars => StarsEnds(s, i)
    case Word(w) => WordEnds(s, i, w)
    case Colon => ColonEnds(s, i)
    case Spaces => SpacesEnds(s, i)
    case Opener => OpenerEnds(s, i)
  }

  predicate Within(s: string, xs: seq<nat>) {
    forall k :: 0 <= k < |xs| ==> xs[k] <= |s|
  }

  /** Every way to match `atom` after every way to reach one of `xs`,
      in backtracking order. */
  function Then(s: string, xs: seq<nat>, atom: Atom): (r: seq<nat>)
    requires Within(s, xs)
    ensures Within(s, r)
  {
    if xs == [] then [] else Ends(s, atom, xs[0]) + Then(s, xs[1..], atom)
  }

  /** Ordered ways to match a sequence of atoms after `xs`. */
  function Run(s: string, xs: seq<nat>, atoms: seq<Atom>): (r: seq<nat>)
    requires Within(s, xs)
    ensures Within(s, r)
    decreases |atoms|
  {
    if atoms == [] then xs else Run(s, Then(s, xs, atoms[0]), atoms[1..])
  }

  /** A successful match: the regular expression matched from `at`, the
      label word starts at `word`, and group 1 is `s[start..end]`. */
  datatype Capture = Capture(at: nat, word: nat, start: nat, end: nat)

  /** The capture the pattern makes of `s` for `f`, as a fact about `s`. */
  predicate IsCapture(s: string, f: Field, z: ZReading, cap: Capture) {
    && StarredLabelAt(s, cap.word, f)
    && cap.at < cap.word
    && cap.word + |Label(f)| + 1 <= cap.start <= cap.end < |s|
    && TerminatorAt(s, cap.end, f, z)
    && NoTerminatorIn(s, cap.start, cap.end, f, z)
  }

  /** Where the label word starts in a match from `p`: after two stars
      when there are two. */
  function WordStart(s: string, p: nat): nat {
    if p + 1 < |s| && s[p + 1] == '*' then p + 2 else p + 1
  }

  /** The lazy capture tried from each candidate start in turn. */
  function FirstCapture(s: string, p: nat, cs: seq<nat>, f: Field, z: ZReading): (m: Option<Capture>)
    requires Within(s, cs)
    ensures m.Some? ==> m.value.start in cs && NextTerminator(s, m.value.start, f, z) == Some(m.value.end)
    ensures m.Some? ==> m.value.at == p && m.value.word == WordStart(s, p)
    ensures m.None? <==> forall k :: 0 <= k < |cs| ==> NextTerminator(s, cs[k], f, z).None?
    ensures m.Some? ==> exists idx :: && 0 <= idx < |cs| && cs[idx] == m.value.start
                                      && forall k :: 0 <= k < idx ==> NextTerminator(s, cs[k], f, z).None?
  {
    if cs == [] then None
    else match NextTerminator(s, cs[0], f, z)
      case Some(q) => Some(Capture(p, WordStart(s, p), cs[0], q))
      case None =>
        var m := FirstCapture(s, p, cs[1..], f, z);
        if m.Some? then
          SkipDeadStart(s, cs, f, z, m.value.start);
          m
        else m
  }

  /** A first live start after a dead head is the first live start of the whole list. */
  lemma SkipDeadStart(s: string, cs: seq<nat>, f: Field, z: ZReading, start: nat)
    requires Within(s, cs) && cs != [] && NextTerminator(s, cs[0], f, z).None?
    requires exists idx :: && 0 <= idx < |cs[1..]| && cs[1..][idx] == start
                           && forall k :: 0 <= k < idx ==> NextTerminator(s, cs[1..][k], f, z).None?
    ensures exists idx :: && 0 <= idx < |cs| && cs[idx] == start
                          && forall k :: 0 <= k < idx ==> NextTerminator(s, cs[k], f, z).None?
  {
    var idx :| && 0 <= idx < |cs[1..]| && cs[1..][idx] == start
               && forall k :: 0 <= k < idx ==> NextTerminator(s, cs[1..][k], f, z).None?;
    forall k | 0 <= k < idx + 1
      ensures NextTerminator(s, cs[k], f, z).None?
    {
      if k > 0 {
        assert cs[k] == cs[1..][k - 1];
      }
    }
  }

  /** The candidate capture starts for a match from `p`, in backtracking order. */
  function Candidates(s: string, p: nat, f: Field): (cs: seq<nat>)
    requires p <= |s|
    ensures Within(s, cs)
  {
    Run(s, [p], LabelPrefix(f))
  }

  /** The match attempt at start position `p`. */
  function MatchAt(s: string, p: nat, f: Field, z: ZReading): (m: Option<Capture>)
    requires p <= |s|
    ensures m.Some? ==> IsCapture(s, f, z, m.value) && m.value.at == p && m.value.word == WordStart(s, p)
    ensures m.Some? ==> NextTerminator(s, m.value.start, f, z) == Some(m.value.end)
    ensures m.None? <==> forall k :: 0 <= k < |Candidates(s, p, f)| ==> NextTerminator(s, Candidates(s, p, f)[k], f, z).None?
    ensures m.Some? ==> exists idx :: && 0 <= idx < |Candidates(s, p, f)| && Candidates(s, p, f)[idx] == m.value.start
                                      && forall k :: 0 <= k < idx ==> NextTerminator(s, Candidates(s, p, f)[k], f, z).None?
  {
    var m := FirstCapture(s, p, Candidates(s, p, f), f, z);
    if m.Some? then
      CandidateSound(s, p, f, m.value.start);
      m
    else m
  }

  /** The first position from `p` to `n` at which `hit` holds: the
      left-to-right order in which `String.prototype.match` tries start
      positions. */
  function FirstHit(n: nat, p: nat, hit: nat -> bool): (r: Option<nat>)
    ensures r.Some? ==> p <= r.value <= n && hit(r.value)
    ensures r.Some? ==> forall j :: p <= j < r.value ==> !hit(j)
    ensures r.None? ==> forall j :: p <= j <= n ==> !hit(j)
    decreases n - p
  {
    if p > n then None
    else if hit(p) then Some(p)
    else FirstHit(n, p + 1, hit)
  }

  /** Whether the pattern matches from `j`. */
  function Hit(s: string, f: Field, z: ZReading): nat -> bool {
    (j: nat) => j <= |s| && MatchAt(s, j, f, z).Some?
  }

  /** The leftmost start position from `p` on at which the pattern matches. */
  function Search(s: string, p: nat, f: Field, z: ZReading): (m: Option<Capture>)
    requires p <= |s|
    ensures m.Some? ==> IsCapture(s, f, z, m.value) && p <= m.value.at
    ensures m.Some? ==> MatchAt(s, m.value.at, f, z) == m && m.value.word == WordStart(s, m.value.at)
  {
    match FirstHit(|s|, p, Hit(s, f, z))
    case Some(j) => MatchAt(s, j, f, z)
    case None => None
  }

  /** The search is leftmost: it misses no start position at which the
      pattern matches. */
  lemma SearchIsLeftmost(s: string, p: nat, f: Field, z: ZReading, q: nat)
    requires p <= q <= |s|
    requires MatchAt(s, q, f, z).Some?
    ensures Search(s, p, f, z).Some? && Search(s, p, f, z).value.at <= q
  {
    var r := FirstHit(|s|, p, Hit(s, f, z));
    assert Hit(s, f, z)(q);
  }

  /** `segment.match(...)` for `f`. */
  function Find(s: string, f: Field, z: ZReading): (m: Option<Capture>)
    ensures m.Some? ==> IsCapture(s, f, z, m.value)
  {
    Search(s, 0, f, z)
  }

  /** Group 1 of the match, or `''` when the pattern does not match. */
  function Extract(s: string, f: Field, z: ZReading): (r: string)
    ensures Find(s, f, z).None? ==> r == ""
    ensures Find(s, f, z).Some? ==>
              exists a: nat, b: nat :: && a <= b < |s| && r == s[a..b]
                                       && TerminatorAt(s, b, f, z) && NoTerminatorIn(s, a, b, f, z)
  {
    match Find(s, f, z)
    case Some(cap) => s[cap.start..cap.end]
    case None => ""
  }

  // ---------------------------------------------------------------------
  // Soundness of the candidate list

  /** Which position of `xs` produced an element of `Then`. */
  lemma {:induction false} ThenSource(s: string, xs: seq<nat>, atom: Atom, y: nat) returns (x: nat)
    requires Within(s, xs)
    requires y in Then(s, xs, atom)
    ensures x in xs && x <= |s| && y in Ends(s, atom, x)
  {
    if y in Ends(s, atom, xs[0]) {
      x := xs[0];
    } else {
      x := ThenSource(s, xs[1..], atom, y);
    }
  }

  /** A route through `atoms`: consecutive positions, each reached from the
      previous one by the atom between them. */
  predicate IsRoute(s: string, atoms: seq<Atom>, path: seq<nat>) {
    && |path| == |atoms| + 1
    && (forall i :: 0 <= i < |path| ==> path[i] <= |s|)
    && forall i :: 0 <= i < |atoms| ==> path[i + 1] in Ends(s, atoms[i], path[i])
  }

  /** Every element of `Run` is the end of a route from one of `xs`. */
  lemma {:induction false} RunSource(s: string, xs: seq<nat>, atoms: seq<Atom>, y: nat) returns (path: seq<nat>)
    requires Within(s, xs)
    requires y in Run(s, xs, atoms)
    ensures IsRoute(s, atoms, path) && path[0] in xs && path[|atoms|] == y
    decreases |atoms|
  {
    if atoms == [] {
      path := [y];
    } else {
      var rest := RunSource(s, Then(s, xs, atoms[0]), atoms[1..], y);
      var x := ThenSource(s, xs, atoms[0], rest[0]);
      path := [x] + rest;
      RouteCons(s, atoms, x, rest);
    }
  }

  /** A step into the start of a route over the remaining atoms extends it. */
  lemma RouteCons(s: string, atoms: seq<Atom>, x: nat, rest: seq<nat>)
    requires atoms != [] && x <= |s| && IsRoute(s, atoms[1..], rest)
    requires rest[0] in Ends(s, atoms[0], x)
    ensures IsRoute(s, atoms, [x] + rest)
  {
    var path := [x] + rest;
    forall i | 0 <= i < |path|
      ensures path[i] <= |s|
    {
      if i > 0 {
        assert path[i] == rest[i - 1];
      }
    }
    forall i | 0 <= i < |atoms|
      ensures path[i + 1] in Ends(s, atoms[i], path[i])
    {
      if i > 0 {
        assert path[i + 1] == rest[i] && path[i] == rest[i - 1] && atoms[i] == atoms[1..][i - 1];
      }
    }
  }

  /** The end of every route from one of `xs` is an element of `Run`. */
  lemma {:induction false} RunIncludes(s: string, xs: seq<nat>, atoms: seq<Atom>, path: seq<nat>)
    requires Within(s, xs)
    requires IsRoute(s, atoms, path) && path[0] in xs
    ensures path[|atoms|] in Run(s, xs, atoms)
    decreases |atoms|
  {
    if atoms != [] {
      ThenIncludes(s, xs, atoms[0], path[0], path[1]);
      var rest := path[1..];
      assert IsRoute(s, atoms[1..], rest) by {
        assert forall i :: 0 <= i < |atoms| - 1 ==> rest[i + 1] in Ends(s, atoms[1..][i], rest[i]) by {
          forall i | 0 <= i < |atoms| - 1
            ensures rest[i + 1] in Ends(s, atoms[1..][i], rest[i])
          {
            assert path[i + 2] in Ends(s, atoms[i + 1], path[i + 1]);
          }
        }
      }
      RunIncludes(s, Then(s, xs, atoms[0]), atoms[1..], rest);
    }
  }

  /** The label of a field never starts with a star. */
  lemma LabelStartsWithLetter(f: Field)
    ensures |Label(f)| > 0 && UpperAscii(Label(f)[0]) != '*'
  {
    match f
    case Image =>
    case Caption =>
  }

  /** After the leading `\*\*?` the label word starts where `WordStart` says. */
  lemma {:induction false} LabelHead(s: string, p: nat, x: nat, f: Field)
    requires p <= |s|
    requires x in StarsEnds(s, p) && MatchesIgnoringCase(s, x, Label(f))
    ensures x == WordStart(s, p) && 1 <= x && s[x - 1] == '*'
  {
    LabelStartsWithLetter(f);
    if x == p + 1 && p + 1 < |s| && s[p + 1] == '*' {
      assert false;
    }
  }

  /** What a route through the label prefix says, atom by atom. */
  lemma PrefixRouteFacts(s: string, f: Field, path: seq<nat>)
    requires IsRoute(s, LabelPrefix(f), path)
    ensures path[1] in StarsEnds(s, path[0])
    ensures path[2] in WordEnds(s, path[1], Label(f))
    ensures path[3] in StarsEnds(s, path[2])
    ensures path[3] <= path[6]
  {
    var atoms := LabelPrefix(f);
    assert path[1] in Ends(s, atoms[0], path[0]);
    assert path[2] in Ends(s, atoms[1], path[1]);
    assert path[3] in Ends(s, atoms[2], path[2]);
    assert path[4] in Ends(s, atoms[3], path[3]);
    assert path[5] in Ends(s, atoms[4], path[4]);
    assert path[6] in Ends(s, atoms[5], path[5]);
  }

  /** The label word `w` matched from `x`, then a star from its end up to
      `y`: the word is followed by a star. */
  lemma ClosingStar(s: string, x: nat, w: string, m: nat, y: nat)
    requires m in WordEnds(s, x, w) && m <= |s| && y in StarsEnds(s, m)
    ensures MatchesIgnoringCase(s, x, w)
    ensures x + |w| < |s| && s[x + |w|] == '*' && x + |w| + 1 <= y
  {
    assert m == x + |w|;
  }

  /** A route through the label prefix passes a starred label word, placed
      where `WordStart` says, before it ends. */
  lemma RouteLabel(s: string, f: Field, path: seq<nat>)
    requires IsRoute(s, LabelPrefix(f), path)
    ensures path[0] < path[1] == WordStart(s, path[0])
    ensures StarredLabelAt(s, path[1], f)
    ensures path[1] + |Label(f)| + 1 <= path[6]
  {
    PrefixRouteFacts(s, f, path);
    ClosingStar(s, path[1], Label(f), path[2], path[3]);
    LabelHead(s, path[0], path[1], f);
  }

  /** Every candidate start lies after a starred label word, and that word
      is where `WordStart` puts it. */
  lemma {:induction false} CandidateSound(s: string, p: nat, f: Field, c: nat)
    requires p <= |s|
    requires c in Candidates(s, p, f)
    ensures StarredLabelAt(s, WordStart(s, p), f)
    ensures p < WordStart(s, p) && WordStart(s, p) + |Label(f)| + 1 <= c
  {
    var path := RunSource(s, [p], LabelPrefix(f), c);
    RouteLabel(s, f, path);
  }

  // ---------------------------------------------------------------------
  // Completeness

  lemma {:induction false} ThenIncludes(s: string, xs: seq<nat>, atom: Atom, x: nat, y: nat)
    requires Within(s, xs)
    requires x in xs && x <= |s| && y in Ends(s, atom, x)
    ensures y in Then(s, xs, atom)
  {
    if xs[0] != x {
      ThenIncludes(s, xs[1..], atom, x, y);
    }
  }

  /** The least-consuming route through the prefix from `p`, with the
      label word at `p + 1`: one star, the label, one star, no colon, no
      space and no opener. */
  function ShortestPath(p: nat, f: Field): seq<nat> {
    var m := p + 1 + |Label(f)|;
    [p, p + 1, m, m + 1, m + 1, m + 1, m + 1]
  }

  /** Each step of the shortest route is a way to match its atom. */
  lemma ShortestStep(s: string, p: nat, f: Field, i: nat)
    requires StarredLabelAt(s, p + 1, f) && i < 6
    ensures ShortestPath(p, f)[i + 1] in Ends(s, LabelPrefix(f)[i], ShortestPath(p, f)[i])
  {
    var w := p + 1;
    var m := w + |Label(f)|;
    var path := ShortestPath(p, f);
    var atoms := LabelPrefix(f);
    if i == 0 {
      assert atoms[0] == Stars && path[0] == p && path[1] == w;
      assert w in StarsEnds(s, p);
    } else if i == 1 {
      assert atoms[1] == Word(Label(f)) && path[1] == w && path[2] == m;
      assert m in WordEnds(s, w, Label(f));
    } else if i == 2 {
      assert atoms[2] == Stars && path[2] == m && path[3] == m + 1;
      assert m + 1 in StarsEnds(s, m);
    } else if i == 3 {
      assert atoms[3] == Colon && path[3] == m + 1 && path[4] == m + 1;
      assert m + 1 in ColonEnds(s, m + 1);
    } else if i == 4 {
      assert atoms[4] == Spaces && path[4] == m + 1 && path[5] == m + 1;
      assert m + 1 in SpacesEnds(s, m + 1);
    } else {
      assert atoms[5] == Opener && path[5] == m + 1 && path[6] == m + 1;
      assert m + 1 in OpenerEnds(s, m + 1);
    }
  }

  /** The shortest path is a route through the prefix. */
  lemma ShortestRoute(s: string, p: nat, f: Field)
    requires StarredLabelAt(s, p + 1, f)
    ensures IsRoute(s, LabelPrefix(f), ShortestPath(p, f))
  {
    var path := ShortestPath(p, f);
    forall i | 0 <= i < 6
      ensures path[i + 1] in Ends(s, LabelPrefix(f)[i], path[i])
    {
      ShortestStep(s, p, f, i);
    }
  }

  /** The shortest route ends at a candidate capture start. */
  lemma ShortestCandidate(s: string, p: nat, f: Field)
    requires StarredLabelAt(s, p + 1, f)
    ensures p + |Label(f)| + 2 in Candidates(s, p, f)
  {
    ShortestRoute(s, p, f);
    RunIncludes(s, [p], LabelPrefix(f), ShortestPath(p, f));
  }

  /** A candidate capture start with a terminator somewhere after it makes
      the attempt from `p` succeed. */
  lemma CandidateMatches(s: string, p: nat, f: Field, z: ZReading, c: nat, q: nat)
    requires p <= |s| && c in Candidates(s, p, f)
    requires c <= q && TerminatorAt(s, q, f, z)
    ensures MatchAt(s, p, f, z).Some?
  {
    var cs := Candidates(s, p, f);
    var k :| 0 <= k < |cs| && cs[k] == c;
    assert NextTerminator(s, c, f, z).Some?;
  }

  /** The attempt from just before a starred label with a terminator after
      it succeeds. */
  lemma LabelMatchesAt(s: string, f: Field, z: ZReading, p: nat, q: nat)
    requires StarredLabelAt(s, p + 1, f) && TerminatorAt(s, q, f, z) && p + |Label(f)| + 2 <= q
    ensures MatchAt(s, p, f, z).Some?
  {
    ShortestCandidate(s, p, f);
    CandidateMatches(s, p, f, z, p + |Label(f)| + 2, q);
  }

  /** A starred label with a terminator after it makes the pattern match. */
  lemma LabelAndTerminatorMatch(s: string, f: Field, z: ZReading, w: nat, q: nat)
    requires StarredLabelAt(s, w, f) && TerminatorAt(s, q, f, z) && w + |Label(f)| + 1 <= q
    ensures Find(s, f, z).Some?
  {
    var p: nat := w - 1;
    LabelMatchesAt(s, f, z, p, q);
    SearchIsLeftmost(s, 0, f, z, p);
  }

  /** The pattern for `f` matches the segment exactly when the segment has a
      starred label word followed, later in the segment, by a terminator. */
  lemma FindIffLabelAndTerminator(s: string, f: Field, z: ZReading)
    ensures Find(s, f, z).Some? <==>
            exists w: nat, q: nat :: StarredLabelAt(s, w, f) && TerminatorAt(s, q, f, z) && w + |Label(f)| + 1 <= q
  {
    var m := Find(s, f, z);
    if m.Some? {
      var cap := m.value;
      assert StarredLabelAt(s, cap.word, f) && TerminatorAt(s, cap.end, f, z);
    }
    if exists w: nat, q: nat :: StarredLabelAt(s, w, f) && TerminatorAt(s, q, f, z) && w + |Label(f)| + 1 <= q {
      var w: nat, q: nat :| StarredLabelAt(s, w, f) && TerminatorAt(s, q, f, z) && w + |Label(f)| + 1 <= q;
      LabelAndTerminatorMatch(s, f, z, w, q);
    }
  }

  /** As written, a field on the last line of its segment is lost: with
      the label's line ending in the segment's final line break, and no
      earlier label, the pattern finds no terminator after the label. */
  lemma FieldAtEndIsLost(s: string, f: Field, w: nat)
    requires StarredLabelAt(s, w, f)
    requires |s| > 0 && s[|s| - 1] == '\n'
    requires forall k :: w <= k < |s| - 1 ==> s[k] != '\n'
    requires NoLabelBefore(s, w, f)
    ensures Find(s, f, LetterZ).None?
  {
    FindIffLabelAndTerminator(s, f, LetterZ);
  }

  /** With `\Z` read as the end of the text, the same field is found, and
      its capture runs to the segment's final line break. */
  lemma FieldAtEndIsKept(s: string, f: Field, w: nat)
    requires StarredLabelAt(s, w, f)
    requires |s| > 0 && s[|s| - 1] == '\n' && w + |Label(f)| + 1 <= |s| - 1
    requires forall k :: w <= k < |s| - 1 ==> s[k] != '\n'
    requires NoLabelBefore(s, w, f)
    ensures Find(s, f, EndOfText).Some?
    ensures Find(s, f, EndOfText).value.end == |s| - 1
  {
    assert TerminatorAt(s, |s| - 1, f, EndOfText);
    LabelAndTerminatorMatch(s, f, EndOfText, w, |s| - 1);
  }

  /** The first end of `atom` after the first way to reach `xs` is what
      `Then` tries first. */
  lemma ThenHead(s: string, xs: seq<nat>, atom: Atom)
    requires Within(s, xs) && xs != [] && Ends(s, atom, xs[0]) != []
    ensures Then(s, xs, atom) != [] && Then(s, xs, atom)[0] == Ends(s, atom, xs[0])[0]
  {
  }

  /** The whole run of white space from `i` ends at `e` when everything
      before `e` is white space and `s[e]` is not. */
  lemma SpacesHead(s: string, i: nat, e: nat)
    requires i <= e < |s| && !IsJsSpace(s[e])
    requires forall k :: i <= k < e ==> IsJsSpace(s[k])
    ensures SpacesEnds(s, i)[0] == e
  {
  }

  /** `\*\*?` tries two stars first: stars at `i` and at `j`, the next
      position. */
  lemma StarsHead(s: string, xs: seq<nat>, i: nat, j: nat)
    requires Within(s, xs) && xs != [] && xs[0] == i
    requires j == i + 1 && j < |s| && s[i] == '*' && s[j] == '*'
    ensures Then(s, xs, Stars) != [] && Then(s, xs, Stars)[0] == i + 2
  {
    ThenHead(s, xs, Stars);
  }

  /** The label word, when it is there. */
  lemma WordHead(s: string, xs: seq<nat>, i: nat, w: string)
    requires Within(s, xs) && xs != [] && xs[0] == i
    requires MatchesIgnoringCase(s, i, w)
    ensures Then(s, xs, Word(w)) != [] && Then(s, xs, Word(w))[0] == i + |w|
  {
    ThenHead(s, xs, Word(w));
  }

  /** `:?` tries the colon first. */
  lemma ColonHead(s: string, xs: seq<nat>, i: nat)
    requires Within(s, xs) && xs != [] && xs[0] == i
    requires i < |s| && s[i] == ':'
    ensures Then(s, xs, Colon) != [] && Then(s, xs, Colon)[0] == i + 1
  {
    ThenHead(s, xs, Colon);
  }

  /** `\s*` tries the whole run of white space first. */
  lemma SpacesThenHead(s: string, xs: seq<nat>, i: nat, e: nat)
    requires Within(s, xs) && xs != [] && xs[0] == i
    requires i <= e < |s| && !IsJsSpace(s[e])
    requires forall k :: i <= k < e ==> IsJsSpace(s[k])
    ensures Then(s, xs, Spaces) != [] && Then(s, xs, Spaces)[0] == e
  {
    SpacesHead(s, i, e);
    ThenHead(s, xs, Spaces);
  }

  /** Before a character that is neither `*` nor an opener, the opener
      group matches nothing. */
  lemma OpenerHead(s: string, xs: seq<nat>, e: nat)
    requires Within(s, xs) && xs != [] && xs[0] == e
    requires e < |s| && s[e] != '*' && !IsOpenerChar(s[e])
    ensures Then(s, xs, Opener) != [] && Then(s, xs, Opener)[0] == e
  {
    ThenHead(s, xs, Opener);
  }

  /** The candidate list is the six atoms applied in pattern order. */
  lemma CandidatesUnfold(s: string, p: nat, f: Field)
    requires p <= |s|
    ensures Candidates(s, p, f)
         == Then(s, Then(s, Then(s, Then(s, Then(s, Then(s, [p], Stars), Word(Label(f))), Stars), Colon), Spaces), Opener)
  {
    var c1 := Then(s, [p], Stars);
    var c2 := Then(s, c1, Word(Label(f)));
    var c3 := Then(s, c2, Stars);
    RunStep(s, [p], Stars, [Word(Label(f)), Stars, Colon, Spaces, Opener]);
    RunStep(s, c1, Word(Label(f)), [Stars, Colon, Spaces, Opener]);
    RunStep(s, c2, Stars, [Colon, Spaces, Opener]);
    RunTail(s, c3);
  }

  /** The last three atoms of the pattern, applied in order. */
  lemma RunTail(s: string, xs: seq<nat>)
    requires Within(s, xs)
    ensures Run(s, xs, [Colon, Spaces, Opener]) == Then(s, Then(s, Then(s, xs, Colon), Spaces), Opener)
  {
    var c4 := Then(s, xs, Colon);
    var c5 := Then(s, c4, Spaces);
    RunStep(s, xs, Colon, [Spaces, Opener]);
    RunStep(s, c4, Spaces, [Opener]);
    RunStep(s, c5, Opener, []);
  }

  /** `Run` applies the first atom, then the rest. */
  lemma RunStep(s: string, xs: seq<nat>, atom: Atom, rest: seq<Atom>)
    requires Within(s, xs)
    ensures Run(s, xs, [atom] + rest) == Run(s, Then(s, xs, atom), rest)
  {
    assert ([atom] + rest)[1..] == rest;
  }

  /** `**Label**:`, white space, then a character that is neither `*`
      nor an opener: the first candidate start is that character. */
  lemma DoubleStarredCandidate(s: string, f: Field, w: nat, e: nat)
    requires StarredLabelAt(s, w, f) && 2 <= w && s[w - 2] == '*'
    requires w + |Label(f)| + 3 <= e < |s|
    requires s[w + |Label(f)| + 1] == '*' && s[w + |Label(f)| + 2] == ':'
    requires forall k :: w + |Label(f)| + 3 <= k < e ==> IsJsSpace(s[k])
    requires !IsJsSpace(s[e]) && s[e] != '*' && !IsOpenerChar(s[e])
    ensures Candidates(s, w - 2, f) != [] && Candidates(s, w - 2, f)[0] == e
  {
    var p := w - 2;
    var c3 := Then(s, Then(s, Then(s, [p], Stars), Word(Label(f))), Stars);
    DoubleStarredLabel(s, f, w);
    ColonSpacesOpener(s, c3, w + |Label(f)| + 2, e);
    CandidatesUnfold(s, p, f);
  }

  /** `**Label**` from its first star: the first way through the stars,
      the label and the stars stops at the second closing star. */
  lemma DoubleStarredLabel(s: string, f: Field, w: nat)
    requires StarredLabelAt(s, w, f) && 2 <= w && s[w - 2] == '*'
    requires w + |Label(f)| + 1 < |s| && s[w + |Label(f)| + 1] == '*'
    ensures Then(s, Then(s, Then(s, [w - 2], Stars), Word(Label(f))), Stars) != []
    ensures Then(s, Then(s, Then(s, [w - 2], Stars), Word(Label(f))), Stars)[0] == w + |Label(f)| + 2
  {
    var p := w - 2;
    var n := |Label(f)|;
    var c1 := Then(s, [p], Stars);
    StarsHead(s, [p], p, w - 1);
    var c2 := Then(s, c1, Word(Label(f)));
    WordHead(s, c1, w, Label(f));
    StarsHead(s, c2, w + n, w + n + 1);
  }

  /** A colon, white space up to `e`, and no opener at `e`: the first way
      through the last three atoms stops at `e`. */
  lemma ColonSpacesOpener(s: string, xs: seq<nat>, i: nat, e: nat)
    requires Within(s, xs) && xs != [] && xs[0] == i
    requires i < e < |s| && s[i] == ':'
    requires forall k :: i + 1 <= k < e ==> IsJsSpace(s[k])
    requires !IsJsSpace(s[e]) && s[e] != '*' && !IsOpenerChar(s[e])
    ensures Then(s, Then(s, Then(s, xs, Colon), Spaces), Opener) != []
    ensures Then(s, Then(s, Then(s, xs, Colon), Spaces), Opener)[0] == e
  {
    var c4 := Then(s, xs, Colon);
    ColonHead(s, xs, i);
    var c5 := Then(s, c4, Spaces);
    SpacesThenHead(s, c4, i + 1, e);
    OpenerHead(s, c5, e);
  }

  /** The match attempt from the first of the two stars of `**Label**:`. */
  lemma DoubleStarredMatch(s: string, f: Field, z: ZReading, w: nat, e: nat)
    requires StarredLabelAt(s, w, f) && 2 <= w && s[w - 2] == '*'
    requires w + |Label(f)| + 3 <= e < |s|
    requires s[w + |Label(f)| + 1] == '*' && s[w + |Label(f)| + 2] == ':'
    requires forall k :: w + |Label(f)| + 3 <= k < e ==> IsJsSpace(s[k])
    requires !IsJsSpace(s[e]) && s[e] != '*' && !IsOpenerChar(s[e])
    requires NextTerminator(s, e, f, z).Some?
    ensures MatchAt(s, w - 2, f, z) == Some(Capture(w - 2, w, e, NextTerminator(s, e, f, z).value))
  {
    DoubleStarredCandidate(s, f, w, e);
  }

  /** When the pattern matches from `p`, two places before the first
      starred label, `String.prototype.match` returns a match from `p`. */
  lemma FindAtFirstLabel(s: string, f: Field, z: ZReading, p: nat)
    requires p + 2 <= |s| && MatchAt(s, p, f, z).Some?
    requires NoLabelBefore(s, p + 2, f)
    ensures Find(s, f, z).Some? && Find(s, f, z).value.at == p
  {
    FindIsLeftmost(s, f, z, p);
    FindStartsAtFirstLabel(s, f, z, p + 2);
  }

  /** A match no later than two places before the first starred label
      starts exactly there. */
  lemma FindStartsAtFirstLabel(s: string, f: Field, z: ZReading, w: nat)
    requires 2 <= w && Find(s, f, z).Some? && Find(s, f, z).value.at <= w - 2
    requires NoLabelBefore(s, w, f)
    ensures Find(s, f, z).value.at == w - 2
  {
    FindIsAttemptAtItsStart(s, f, z);
    var cap := Find(s, f, z).value;
    LeftmostBeforeFirstLabel(s, f, w, cap.at, cap.word);
  }

  /** The match `String.prototype.match` returns is the attempt made at its
      own start. */
  lemma FindIsAttemptAtItsStart(s: string, f: Field, z: ZReading)
    requires Find(s, f, z).Some?
    ensures MatchAt(s, Find(s, f, z).value.at, f, z) == Find(s, f, z)
    ensures Find(s, f, z).value.word == WordStart(s, Find(s, f, z).value.at)
    ensures StarredLabelAt(s, Find(s, f, z).value.word, f)
  {
  }

  /** `String.prototype.match` finds a match whenever the pattern matches
      from some position, and starts no later than it. */
  lemma FindIsLeftmost(s: string, f: Field, z: ZReading, q: nat)
    requires q <= |s| && MatchAt(s, q, f, z).Some?
    ensures Find(s, f, z).Some? && Find(s, f, z).value.at <= q
  {
    SearchIsLeftmost(s, 0, f, z, q);
  }

  /** A match that starts no later than two places before the first starred
      label starts exactly there. */
  lemma LeftmostBeforeFirstLabel(s: string, f: Field, w: nat, at: nat, word: nat)
    requires NoLabelBefore(s, w, f)
    ensures 2 <= w && at <= w - 2 && word == WordStart(s, at) && StarredLabelAt(s, word, f) ==> at == w - 2
  {
  }

  /** For a field written `**Label**:` with white space after it and then a
      character that is neither `*` nor an opener, the capture starts at that
      character: the engine's first choices (two stars, the label, two
      stars, the colon, all the white space, no opener) already reach a
      terminator, so no star, colon or space leaks into group 1, which runs
      from there to the first terminator. */
  lemma DoubleStarredFieldStart(s: string, f: Field, z: ZReading, w: nat, e: nat)
    requires StarredLabelAt(s, w, f) && 2 <= w && s[w - 2] == '*'
    requires w + |Label(f)| + 3 <= e < |s|
    requires s[w + |Label(f)| + 1] == '*' && s[w + |Label(f)| + 2] == ':'
    requires forall k :: w + |Label(f)| + 3 <= k < e ==> IsJsSpace(s[k])
    requires !IsJsSpace(s[e]) && s[e] != '*' && !IsOpenerChar(s[e])
    requires NextTerminator(s, e, f, z).Some?
    requires NoLabelBefore(s, w, f)
    ensures Find(s, f, z).Some? && Find(s, f, z).value.start == e
    ensures Find(s, f, z).value.end == NextTerminator(s, e, f, z).value
    ensures Extract(s, f, z) == s[e..NextTerminator(s, e, f, z).value]
  {
    DoubleStarredFind(s, f, z, w, e);
    ExtractOfFind(s, f, z);
  }

  /** The match `String.prototype.match` returns for such a field. */
  lemma DoubleStarredFind(s: string, f: Field, z: ZReading, w: nat, e: nat)
    requires StarredLabelAt(s, w, f) && 2 <= w && s[w - 2] == '*'
    requires w + |Label(f)| + 3 <= e < |s|
    requires s[w + |Label(f)| + 1] == '*' && s[w + |Label(f)| + 2] == ':'
    requires forall k :: w + |Label(f)| + 3 <= k < e ==> IsJsSpace(s[k])
    requires !IsJsSpace(s[e]) && s[e] != '*' && !IsOpenerChar(s[e])
    requires NextTerminator(s, e, f, z).Some?
    requires NoLabelBefore(s, w, f)
    ensures Find(s, f, z).Some? && Find(s, f, z).value.start == e
    ensures Find(s, f, z).value.end == NextTerminator(s, e, f, z).value
  {
    DoubleStarredMatch(s, f, z, w, e);
    FindIsFirstAttempt(s, f, z, w);
  }

  /** `match(...)[1]` is the text of group 1 of the match. */
  lemma ExtractOfFind(s: string, f: Field, z: ZReading)
    requires Find(s, f, z).Some?
    ensures Extract(s, f, z) == s[Find(s, f, z).value.start..Find(s, f, z).value.end]
  {
  }

  /** When the pattern matches from two places before the first starred
      label, `String.prototype.match` returns exactly that attempt. */
  lemma FindIsFirstAttempt(s: string, f: Field, z: ZReading, w: nat)
    requires 2 <= w <= |s| && MatchAt(s, w - 2, f, z).Some?
    requires NoLabelBefore(s, w, f)
    ensures Find(s, f, z) == MatchAt(s, w - 2, f, z)
  {
    var p := w - 2;
    NoLabelBeforeShift(s, f, w, p);
    FindAtFirstLabel(s, f, z, p);
    FindIsAttemptAtItsStart(s, f, z);
  }

  lemma NoLabelBeforeShift(s: string, f: Field, w: nat, p: nat)
    requires NoLabelBefore(s, w, f) && p + 2 == w
    ensures NoLabelBefore(s, p + 2, f)
  {
  }
}

=== FILE: hashtags.dfy ===
/** `formatCaption` (script.js:120-124) before its two calls to the
    sanitiser: `caption.match(/#[\w√Ä-√∫]+/g)?.join(' ') || ''` collects the
    hashtags and `caption.replace(/#[\w√Ä-√∫]+/g, '').trim()` is the text.
    Both global operations scan left to right, try each position in turn,
    take the greedy `+` and resume after the match. */
module Hashtags {
  import opened JsText

  /** The class `[\w√Ä-√∫]` as written in script.js:121: it is the Mac Roman
      reading of the UTF-8 bytes of `À-ú`, so it holds `\w`, U+221A, the
      range U+00C4..U+221A and U+222B. The regular expression has no `i`
      flag. That range includes the Unicode space separators U+1680,
      U+2000..U+200A, U+202F, U+205F and the separators U+2028 and U+2029. */
  predicate IsTagChar(c: char) {
    || IsWordChar(c)
    || c == '\U{221A}'
    || ('\U{00C4}' <= c <= '\U{221A}')
    || c == '\U{222B}'
  }

  /** The pattern `#[\w√Ä-√∫]+` can start at `i`. */
  predicate TagAt(s: string, i: nat) {
    i + 1 < |s| && s[i] == '#' && IsTagChar(s[i + 1])
  }

  predicate NoTag(s: string) {
    forall i :: 0 <= i < |s| ==> !TagAt(s, i)
  }

  /** A single match of the pattern: `#` and at least one tag character. */
  predicate IsTag(t: string) {
    |t| >= 2 && t[0] == '#' && forall k :: 1 <= k < |t| ==> IsTagChar(t[k])
  }

  function TotalLength(ts: seq<string>): nat {
    if ts == [] then 0 else |ts[0]| + TotalLength(ts[1..])
  }

  /** The matches of the global pattern, the gaps around them (`gaps[k]`
      is the text in front of `tags[k]`, and the last gap the text after the
      last match), and what the global replacement by `''` leaves. */
  datatype Split = Split(tags: seq<string>, gaps: seq<string>, rest: string)

  /** The first gap, then each tag followed by the gap after it. */
  function Weave(gaps: seq<string>, tags: seq<string>): string
    requires |gaps| == |tags| + 1
    decreases |tags|
  {
    if tags == [] then gaps[0] else gaps[0] + tags[0] + Weave(gaps[1..], tags[1..])
  }

  /** `r` is what the scan of `s` gives. The input is the gaps and the
      matches interleaved, and the remainder is the gaps alone. The scan
      misses no match (no gap holds a tag start) and every match is as long
      as the greedy `+` makes it (no gap after a match starts with a tag
      character). A remainder that starts anywhere but at a tag character
      does not start with one, and no tag is left in it. */
  predicate IsScanOf(s: string, r: Split) {
    && (forall k :: 0 <= k < |r.tags| ==> IsTag(r.tags[k]))
    && |r.gaps| == |r.tags| + 1 && Weave(r.gaps, r.tags) == s
    && r.rest == Concat(r.gaps)
    && (forall k :: 0 <= k < |r.gaps| ==> NoTag(r.gaps[k]))
    && (forall k :: 1 <= k < |r.gaps| ==> r.gaps[k] == [] || !IsTagChar(r.gaps[k][0]))
    && TotalLength(r.tags) + |r.rest| == |s|
    && (|s| > 0 && !IsTagChar(s[0]) && |r.rest| > 0 ==> !IsTagChar(r.rest[0]))
    && NoTag(r.rest)
  }

  /** The scan shared by `match` and `replace`. */
  function SplitTags(s: string): (r: Split)
    ensures IsScanOf(s, r)
    decreases |s|
  {
    if |s| == 0 then Split([], [[]], [])
    else if TagAt(s, 0) then
      var n := RunEnd(s, 1, IsTagChar);
      var r := SplitTags(s[n..]);
      ScanFromTag(s, n, r);
      Split([s[..n]] + r.tags, [[]] + r.gaps, r.rest)
    else
      var r := SplitTags(s[1..]);
      ScanFromOther(s, r);
      Split(r.tags, [[s[0]] + r.gaps[0]] + r.gaps[1..], [s[0]] + r.rest)
  }

  /** A scan that finds a match at the start. */
  lemma ScanFromTag(s: string, n: nat, r: Split)
    requires TagAt(s, 0) && n == RunEnd(s, 1, IsTagChar)
    requires IsScanOf(s[n..], r)
    ensures IsScanOf(s, Split([s[..n]] + r.tags, [[]] + r.gaps, r.rest))
  {
    TagRun(s, n);
    AfterTag(s, n, r.gaps, r.tags);
    TagsCons(s[..n], r.tags);
    GapsCons(r.gaps);
  }

  /** The greedy `+` from a tag start takes a whole match and stops before
      a character that is not a tag character. */
  lemma TagRun(s: string, n: nat)
    requires TagAt(s, 0) && n == RunEnd(s, 1, IsTagChar)
    ensures IsTag(s[..n]) && 2 <= n <= |s| && (n == |s| || !IsTagChar(s[n]))
  {
    assert IsTagChar(s[1]);
    forall k | 1 <= k < n
      ensures IsTagChar(s[..n][k])
    {
    }
  }

  /** A match in front of a list of matches. */
  lemma TagsCons(t: string, tags: seq<string>)
    requires IsTag(t) && forall k :: 0 <= k < |tags| ==> IsTag(tags[k])
    ensures forall k :: 0 <= k < |[t] + tags| ==> IsTag(([t] + tags)[k])
    ensures TotalLength([t] + tags) == |t| + TotalLength(tags)
  {
    assert ([t] + tags)[1..] == tags;
    forall k | 1 <= k < |[t] + tags|
      ensures IsTag(([t] + tags)[k])
    {
      assert ([t] + tags)[k] == tags[k - 1];
    }
  }

  /** An empty gap in front of gaps that hold no tag and, from the first on,
      do not start with a tag character. */
  lemma GapsCons(gaps: seq<string>)
    requires |gaps| > 0 && forall k :: 0 <= k < |gaps| ==> NoTag(gaps[k])
    requires forall k :: 1 <= k < |gaps| ==> gaps[k] == [] || !IsTagChar(gaps[k][0])
    requires gaps[0] == [] || !IsTagChar(gaps[0][0])
    ensures forall k :: 0 <= k < |[[]] + gaps| ==> NoTag(([[]] + gaps)[k])
    ensures forall k :: 1 <= k < |[[]] + gaps| ==> ([[]] + gaps)[k] == [] || !IsTagChar(([[]] + gaps)[k][0])
  {
    forall k | 1 <= k < |[[]] + gaps|
      ensures ([[]] + gaps)[k] == gaps[k - 1]
    {
    }
  }

  /** A scan that moves past a character that starts no match. */
  lemma ScanFromOther(s: string, r: Split)
    requires |s| > 0 && !TagAt(s, 0)
    requires IsScanOf(s[1..], r)
    ensures IsScanOf(s, Split(r.tags, [[s[0]] + r.gaps[0]] + r.gaps[1..], [s[0]] + r.rest))
  {
    var gaps := [[s[0]] + r.gaps[0]] + r.gaps[1..];
    var rest := [s[0]] + r.rest;
    ExtendFirstGap(s, r.gaps, r.tags);
    assert forall k :: 1 <= k < |gaps| ==> gaps[k] == r.gaps[k];
    assert forall i :: 1 <= i < |rest| ==> TagAt(rest, i) == TagAt(r.rest, i - 1);
  }

  /** The text of a weave starts with its first gap. */
  lemma WeaveStartsWithGap(gaps: seq<string>, tags: seq<string>)
    requires |gaps| == |tags| + 1
    ensures gaps[0] <= Weave(gaps, tags)
  {
  }

  /** Prepending a match and an empty gap: the character after the match
      is not a tag character, so neither is the first one of the next gap. */
  lemma AfterTag(s: string, n: nat, gaps: seq<string>, tags: seq<string>)
    requires 1 <= n <= |s| && (n == |s| || !IsTagChar(s[n]))
    requires |gaps| == |tags| + 1 && Weave(gaps, tags) == s[n..]
    ensures Weave([[]] + gaps, [s[..n]] + tags) == s
    ensures Concat([[]] + gaps) == Concat(gaps)
    ensures gaps[0] == [] || !IsTagChar(gaps[0][0])
  {
    WeaveHead([], s[..n], gaps, tags);
    assert [] + s[..n] == s[..n];
    assert s[..n] + s[n..] == s;
    ConcatHead([], gaps);
    assert [] + Concat(gaps) == Concat(gaps);
    WeaveStartsWithGap(gaps, tags);
  }

  lemma WeaveHead(g: string, t: string, gaps: seq<string>, tags: seq<string>)
    requires |gaps| == |tags| + 1
    ensures Weave([g] + gaps, [t] + tags) == g + t + Weave(gaps, tags)
  {
    assert ([g] + gaps)[1..] == gaps && ([t] + tags)[1..] == tags;
  }

  /** Moving the first character of the text into the first gap. */
  lemma ExtendFirstGap(s: string, gaps: seq<string>, tags: seq<string>)
    requires |s| > 0 && !TagAt(s, 0)
    requires |gaps| == |tags| + 1 && Weave(gaps, tags) == s[1..] && NoTag(gaps[0])
    ensures Weave([[s[0]] + gaps[0]] + gaps[1..], tags) == s
    ensures Concat([[s[0]] + gaps[0]] + gaps[1..]) == [s[0]] + Concat(gaps)
    ensures NoTag([s[0]] + gaps[0])
  {
    WeaveCons(s[0], gaps, tags);
    assert [s[0]] + s[1..] == s;
    ConcatCons(s[0], gaps);
    WeaveStartsWithGap(gaps, tags);
    NoTagCons(s[0], gaps[0], if |s| > 1 then s[1] else '#');
  }

  lemma WeaveCons(c: char, gaps: seq<string>, tags: seq<string>)
    requires |gaps| == |tags| + 1
    ensures Weave([[c] + gaps[0]] + gaps[1..], tags) == [c] + Weave(gaps, tags)
  {
    assert ([[c] + gaps[0]] + gaps[1..])[1..] == gaps[1..];
  }

  lemma ConcatCons(c: char, gaps: seq<string>)
    requires |gaps| > 0
    ensures Concat([[c] + gaps[0]] + gaps[1..]) == [c] + Concat(gaps)
  {
    var x := Concat(gaps[1..]);
    ConcatHead([c] + gaps[0], gaps[1..]);
    ConcatHead(gaps[0], gaps[1..]);
    HeadTail(gaps);
    AppendAssoc([c], gaps[0], x);
  }

  lemma ConcatHead(h: string, tail: seq<string>)
    ensures Concat([h] + tail) == h + Concat(tail)
  {
    assert ([h] + tail)[1..] == tail;
  }

  lemma AppendAssoc(a: string, b: string, c: string)
    ensures (a + b) + c == a + (b + c)
  {
  }

  /** A character in front of a tag-free text leaves it tag-free unless it
      is a `#` in front of a tag character. */
  lemma NoTagCons(c: char, g: string, next: char)
    requires NoTag(g) && (g == [] || g[0] == next)
    requires !(c == '#' && g != [] && IsTagChar(next))
    ensures NoTag([c] + g)
  {
    var h := [c] + g;
    forall i | 1 <= i < |h|
      ensures !TagAt(h, i)
    {
      assert TagAt(h, i) == TagAt(g, i - 1);
    }
  }

  /** A text with no tag in it is all remainder. */
  lemma {:induction false} SplitOfTagFree(s: string)
    requires NoTag(s)
    ensures SplitTags(s) == Split([], [s], s)
    decreases |s|
  {
    if |s| > 0 {
      assert !TagAt(s, 0);
      assert forall i :: 0 <= i < |s| - 1 ==> TagAt(s[1..], i) == TagAt(s, i + 1);
      SplitOfTagFree(s[1..]);
    }
  }

  /** The scan finds a tag exactly when the text has a tag start somewhere. */
  lemma {:induction false} TagsFoundIffTagPresent(s: string)
    ensures SplitTags(s).tags == [] <==> NoTag(s)
    decreases |s|
  {
    if NoTag(s) {
      SplitOfTagFree(s);
    } else if !TagAt(s, 0) {
      var i :| 0 <= i < |s| && TagAt(s, i);
      assert 1 <= i && TagAt(s[1..], i - 1);
      TagsFoundIffTagPresent(s[1..]);
    }
  }

  /** `JavaScript Array.prototype.join`. */
  function Join(ts: seq<string>, sep: string): string {
    if ts == [] then "" else if |ts| == 1 then ts[0] else ts[0] + sep + Join(ts[1..], sep)
  }

  /** The caption text and its hashtags, before sanitising. */
  datatype RawCaption = RawCaption(text: string, hashtags: string)

  /** The text and hashtag parts of `formatCaption` before sanitising. The
      text holds no tag and no white space at either end; the hashtags are
      empty exactly when the caption holds no tag, and otherwise scanning
      them again finds the caption's tags, in order. */
  function SplitCaption(caption: string): (r: RawCaption)
    ensures NoTag(r.text)
    ensures r.text == [] || (!IsJsSpace(r.text[0]) && !IsJsSpace(r.text[|r.text| - 1]))
    ensures r.hashtags == "" <==> NoTag(caption)
    ensures SplitTags(r.hashtags).tags == SplitTags(caption).tags
    ensures r.text == Trim(SplitTags(caption).rest)
    ensures r.hashtags == if SplitTags(caption).tags == [] then "" else Join(SplitTags(caption).tags, " ")
  {
    RawCaption(CaptionText(caption), CaptionHashtags(caption))
  }

  /** `caption.replace(/#[\w√Ä-√∫]+/g, '').trim()`. */
  function CaptionText(caption: string): (t: string)
    ensures NoTag(t)
    ensures t == [] || (!IsJsSpace(t[0]) && !IsJsSpace(t[|t| - 1]))
  {
    CaptionTextHasNoTag(caption);
    Trim(SplitTags(caption).rest)
  }

  /** `caption.match(/#[\w√Ä-√∫]+/g)?.join(' ') || ''`: `match` gives `null`
      when nothing matches, and a joined list of tags is never empty. */
  function CaptionHashtags(caption: string): (h: string)
    ensures h == "" <==> NoTag(caption)
    ensures SplitTags(h).tags == SplitTags(caption).tags
  {
    CaptionTagsRejoined(caption);
    var ts := SplitTags(caption).tags;
    if ts == [] then "" else Join(ts, " ")
  }

  /** What is left of the caption, trimmed, holds no tag. */
  lemma CaptionTextHasNoTag(caption: string)
    ensures NoTag(Trim(SplitTags(caption).rest))
  {
    TrimKeepsNoTag(SplitTags(caption).rest);
  }

  /** The caption's tags joined by spaces: empty exactly when there are
      none, and rescanned into the same tags. */
  lemma CaptionTagsRejoined(caption: string)
    ensures var ts := SplitTags(caption).tags;
            && (ts == [] <==> NoTag(caption))
            && (ts != [] ==> Join(ts, " ") != "")
            && SplitTags(if ts == [] then "" else Join(ts, " ")).tags == ts
  {
    var ts := SplitTags(caption).tags;
    TagsFoundIffTagPresent(caption);
    JoinedTagsRescan(ts);
    if ts != [] {
      assert |Join(ts, " ")| >= |ts[0]| >= 2;
    }
  }

  /** Trimming cannot create a tag: it only cuts characters off the ends. */
  lemma TrimKeepsNoTag(s: string)
    requires NoTag(s)
    ensures NoTag(Trim(s))
  {
    var t := Trim(s);
    var i0 := LeadingSpaces(s);
    forall i | 0 <= i < |t|
      ensures !TagAt(t, i)
    {
      assert t[i] == s[i0 + i];
      if i + 1 < |t| {
        assert t[i + 1] == s[i0 + i + 1];
      }
      assert !TagAt(s, i0 + i);
    }
  }

  /** Splitting the caption text again finds no hashtag and leaves the text
      as it is: the split is idempotent. */
  lemma SplitCaptionIdempotent(caption: string)
    ensures SplitCaption(SplitCaption(caption).text) == RawCaption(SplitCaption(caption).text, "")
  {
    var t := SplitCaption(caption).text;
    TrimKeepsNoTag(SplitTags(caption).rest);
    SplitOfTagFree(t);
    TrimOfTrimmed(t);
  }

  /** Rescanning the joined hashtags finds the same tags, and only the
      separating spaces are left over: the space is not a tag character, so
      each tag stays maximal. */
  lemma {:induction false} JoinedTagsRescan(ts: seq<string>)
    requires forall k :: 0 <= k < |ts| ==> IsTag(ts[k])
    ensures SplitTags(Join(ts, " ")).tags == ts
    decreases |ts|
  {
    if |ts| == 1 {
      TagThenText(ts[0], []);
      assert ts[0] + [] == ts[0];
    } else if |ts| > 1 {
      JoinedTagsRescan(ts[1..]);
      RescanStep(ts);
    }
  }

  /** One more tag in front of the joined list adds it in front of the
      rescanned tags. */
  lemma RescanStep(ts: seq<string>)
    requires |ts| > 1 && IsTag(ts[0])
    requires SplitTags(Join(ts[1..], " ")).tags == ts[1..]
    ensures SplitTags(Join(ts, " ")).tags == ts
  {
    JoinCons(ts);
    TagSpaceText(ts[0], Join(ts[1..], " "), Join(ts, " "));
    HeadTail(ts);
  }

  /** Joining two or more tags: the first, a space, then the rest joined. */
  lemma JoinCons(ts: seq<string>)
    requires |ts| > 1
    ensures Join(ts, " ") == ts[0] + (" " + Join(ts[1..], " "))
  {
    AppendAssoc(ts[0], " ", Join(ts[1..], " "));
  }

  /** A match, a space, then any text: the scan finds that match, then
      scans the text. */
  lemma TagSpaceText(t: string, rest: string, j: string)
    requires IsTag(t) && j == t + (" " + rest)
    ensures SplitTags(j).tags == [t] + SplitTags(rest).tags
  {
    TagThenText(t, " " + rest);
    SpaceThenText(rest);
  }

  /** A match followed by text that does not go on with a tag character:
      the scan finds that match, then scans the text. */
  lemma TagThenText(t: string, rest: string)
    requires IsTag(t) && (rest == [] || !IsTagChar(rest[0]))
    ensures SplitTags(t + rest).tags == [t] + SplitTags(rest).tags
  {
    var j := t + rest;
    assert TagAt(j, 0);
    TagRunIsWhole(j, t);
    assert j[..|t|] == t && j[|t|..] == rest;
  }

  /** A leading space starts no match. */
  lemma SpaceThenText(rest: string)
    ensures SplitTags(" " + rest).tags == SplitTags(rest).tags
  {
    assert !TagAt(" " + rest, 0);
    assert (" " + rest)[1..] == rest;
  }

  /** The greedy run after the `#` of a tag at the front stops exactly at
      the tag's end when a non-tag character or the end follows. */
  lemma TagRunIsWhole(j: string, t: string)
    requires IsTag(t) && t <= j
    requires |j| == |t| || !IsTagChar(j[|t|])
    ensures RunEnd(j, 1, IsTagChar) == |t|
  {
    RunStopsAt(j, 1, |t|);
  }

  lemma {:induction false} RunStopsAt(j: string, i: nat, e: nat)
    requires i <= e <= |j|
    requires forall k :: i <= k < e ==> IsTagChar(j[k])
    requires e == |j| || !IsTagChar(j[e])
    ensures RunEnd(j, i, IsTagChar) == e
    decreases e - i
  {
    if i < e {
      RunStopsAt(j, i + 1, e);
    }
  }

  // ---------------------------------------------------------------------
  // The scan is the only tokenisation

  /** `s` is gaps and matches interleaved, with every match a whole tag,
      no tag start inside a gap, and no gap after a match going on with a
      tag character. Nothing here says how the text was scanned. */
  predicate Tokenizes(s: string, tags: seq<string>, gaps: seq<string>) {
    && |gaps| == |tags| + 1
    && (forall k :: 0 <= k < |tags| ==> IsTag(tags[k]))
    && (forall k :: 0 <= k < |gaps| ==> NoTag(gaps[k]))
    && (forall k :: 1 <= k < |gaps| ==> gaps[k] == [] || !IsTagChar(gaps[k][0]))
    && Weave(gaps, tags) == s
  }

  /** `formatCaption` before sanitising, from any tokenisation of the
      caption: the text is the caption with exactly those tags removed,
      then trimmed, and the hashtags are the tags joined by single spaces,
      or `''` when there are none. */
  lemma SplitCaptionOfTokens(caption: string, tags: seq<string>, gaps: seq<string>)
    requires Tokenizes(caption, tags, gaps)
    ensures SplitCaption(caption) == RawCaption(Trim(Concat(gaps)), if tags == [] then "" else Join(tags, " "))
  {
    TokenizationIsScan(caption, tags, gaps);
  }

  /** The left-to-right scan finds the only tokenisation there is. */
  lemma {:induction false} TokenizationIsScan(s: string, tags: seq<string>, gaps: seq<string>)
    requires Tokenizes(s, tags, gaps)
    ensures SplitTags(s).tags == tags && SplitTags(s).gaps == gaps
    decreases |s|
  {
    if |s| == 0 {
      EmptyTokenization(tags, gaps);
    } else if TagAt(s, 0) {
      LeadingTagToken(s, tags, gaps);
      var t := tags[0];
      var w := Weave(gaps[1..], tags[1..]);
      TokensAfterTag(tags, gaps);
      NextCharNotTagChar(gaps[1..], tags[1..]);
      var n := RunEnd(s, 1, IsTagChar);
      TagThenRest(s, t, w);
      TagRunIsWhole(s, t);
      TokenizationIsScan(s[n..], tags[1..], gaps[1..]);
      HeadTail(tags);
      HeadTail(gaps);
    } else {
      LeadingGapChar(s, tags, gaps);
      var g := gaps[0][1..];
      var h := [g] + gaps[1..];
      TokensAfterChar(s, tags, gaps);
      TokenizationIsScan(s[1..], tags, h);
      assert h[0] == g && h[1..] == gaps[1..];
      HeadTail(gaps[0]);
      HeadTail(gaps);
    }
  }

  /** The empty text has one tokenisation: no tag and one empty gap. */
  lemma EmptyTokenization(tags: seq<string>, gaps: seq<string>)
    requires Tokenizes([], tags, gaps)
    ensures tags == [] && gaps == [[]]
  {
  }

  /** A text starting with a tag start has its first match at the front. */
  lemma LeadingTagToken(s: string, tags: seq<string>, gaps: seq<string>)
    requires Tokenizes(s, tags, gaps) && TagAt(s, 0)
    ensures tags != [] && gaps[0] == []
    ensures s == tags[0] + Weave(gaps[1..], tags[1..])
  {
    assert !IsTagChar('#');
    if tags == [] {
      assert false;
    } else {
      var g := gaps[0];
      assert s == g + tags[0] + Weave(gaps[1..], tags[1..]);
      if |g| >= 2 {
        GapWouldHoldTag(s, g, tags[0] + Weave(gaps[1..], tags[1..]));
        assert false;
      } else if |g| == 1 {
        assert false;
      }
    }
  }

  /** A gap of two or more characters at the front of a tag start would
      hold that tag start. */
  lemma GapWouldHoldTag(s: string, g: string, w: string)
    requires s == g + w && |g| >= 2 && TagAt(s, 0)
    ensures TagAt(g, 0)
  {
  }

  /** A text not starting with a tag start has a non-empty first gap. */
  lemma LeadingGapChar(s: string, tags: seq<string>, gaps: seq<string>)
    requires Tokenizes(s, tags, gaps) && |s| > 0 && !TagAt(s, 0)
    ensures gaps[0] != [] && s[0] == gaps[0][0]
    ensures s[1..] == Weave([gaps[0][1..]] + gaps[1..], tags)
  {
    var g := gaps[0];
    if tags == [] {
      assert s == g;
      WeaveOne([g[1..]]);
    } else {
      assert s == g + tags[0] + Weave(gaps[1..], tags[1..]);
      if g == [] {
        assert false;
      }
      WeaveHead(g[1..], tags[0], gaps[1..], tags[1..]);
      HeadTail(tags);
      assert s[1..] == g[1..] + tags[0] + Weave(gaps[1..], tags[1..]);
    }
  }

  /** A weave with no match is its one gap. */
  lemma WeaveOne(gaps: seq<string>)
    requires |gaps| == 1
    ensures Weave(gaps, []) == gaps[0]
  {
  }

  /** What follows the first match is tokenised by the remaining gaps and
      matches. */
  lemma TokensAfterTag(tags: seq<string>, gaps: seq<string>)
    requires |gaps| == |tags| + 1 && tags != []
    requires forall k :: 0 <= k < |tags| ==> IsTag(tags[k])
    requires forall k :: 0 <= k < |gaps| ==> NoTag(gaps[k])
    requires forall k :: 1 <= k < |gaps| ==> gaps[k] == [] || !IsTagChar(gaps[k][0])
    ensures Tokenizes(Weave(gaps[1..], tags[1..]), tags[1..], gaps[1..])
    ensures gaps[1] == [] || !IsTagChar(gaps[1][0])
  {
    assert forall k :: 1 <= k < |gaps[1..]| ==> gaps[1..][k] == gaps[k + 1];
  }

  /** Dropping the first character of the first gap leaves a tokenisation
      of the rest of the text. */
  lemma TokensAfterChar(s: string, tags: seq<string>, gaps: seq<string>)
    requires Tokenizes(s, tags, gaps) && gaps[0] != []
    requires s[1..] == Weave([gaps[0][1..]] + gaps[1..], tags)
    ensures Tokenizes(s[1..], tags, [gaps[0][1..]] + gaps[1..])
  {
    var g := gaps[0];
    var h := [g[1..]] + gaps[1..];
    forall i | 0 <= i < |g[1..]|
      ensures !TagAt(g[1..], i)
    {
      assert !TagAt(g, i + 1);
    }
    forall k | 1 <= k < |h|
      ensures h[k] == gaps[k]
    {
    }
  }

  /** The text after a match starts with a gap that does not go on with a
      tag character, or with the `#` of the next match, or is empty. */
  lemma NextCharNotTagChar(gaps: seq<string>, tags: seq<string>)
    requires |gaps| == |tags| + 1
    requires forall k :: 0 <= k < |tags| ==> IsTag(tags[k])
    requires gaps[0] == [] || !IsTagChar(gaps[0][0])
    ensures Weave(gaps, tags) == [] || !IsTagChar(Weave(gaps, tags)[0])
  {
    assert !IsTagChar('#');
    if tags != [] && gaps[0] == [] {
      assert Weave(gaps, tags)[0] == tags[0][0];
    }
  }

  /** A match in front of a text. */
  lemma TagThenRest(s: string, t: string, w: string)
    requires s == t + w
    ensures t <= s && s[..|t|] == t && s[|t|..] == w
    ensures |s| == |t| || s[|t|] == w[0]
  {
  }
}

=== FILE: js_text.dfy ===
/** Character classes and string helpers of the JavaScript runtime that the
    parser in script.js relies on: `\s`, `\d`, `\w`, the ASCII case folding of
    a non-unicode `/i` regular expression, `String.prototype.trim` and
    `parseInt(_, 10)` on a run of decimal digits. */
module JsText {

  /** `\s` in a regular expression, and the characters `trim` removes:
      the ECMAScript WhiteSpace and LineTerminator code points. */
  predicate IsJsSpace(c: char) {
    || c == '\t' || c == '\n' || c == '\U{000B}' || c == '\U{000C}' || c == '\r' || c == ' '
    || c == '\U{00A0}' || c == '\U{1680}' || ('\U{2000}' <= c <= '\U{200A}')
    || c == '\U{2028}' || c == '\U{2029}' || c == '\U{202F}' || c == '\U{205F}'
    || c == '\U{3000}' || c == '\U{FEFF}'
  }

  /** `\d` without the `u` flag: ASCII digits only. */
  predicate IsAsciiDigit(c: char) {
    '0' <= c <= '9'
  }

  /** `\w` without the `u` flag. */
  predicate IsWordChar(c: char) {
    ('a' <= c <= 'z') || ('A' <= c <= 'Z') || IsAsciiDigit(c) || c == '_'
  }

  /** Canonicalisation of a non-unicode `/i` regular expression restricted to
      what the patterns here compare against: a character whose upper case
      is ASCII only when it is ASCII itself, so only ASCII letters fold. */
  function UpperAscii(c: char): (u: char)
    ensures 'a' <= c <= 'z' ==> 'A' <= u <= 'Z' && u as int + 32 == c as int
    ensures !('a' <= c <= 'z') ==> u == c
  {
    if 'a' <= c <= 'z' then (c as int - 32) as char else c
  }

  /** The literal `w` of a `/i` pattern matches `s` at position `i`. */
  predicate MatchesIgnoringCase(s: string, i: nat, w: string) {
    i + |w| <= |s| && forall k :: 0 <= k < |w| ==> UpperAscii(s[i + k]) == UpperAscii(w[k])
  }

  /** End of the longest run of characters satisfying `p` that starts at `i`:
      a greedy `p*`. */
  function RunEnd(s: string, i: nat, p: char -> bool): (j: nat)
    requires i <= |s|
    ensures i <= j <= |s|
    ensures forall k :: i <= k < j ==> p(s[k])
    ensures j == |s| || !p(s[j])
    decreases |s| - i
  {
    if i < |s| && p(s[i]) then RunEnd(s, i + 1, p) else i
  }

  /** Where a greedy run of characters satisfying `p`, read backwards from
      `j`, stops; it never goes below `i`. */
  function RunStart(s: string, i: nat, j: nat, p: char -> bool): (k: nat)
    requires i <= j <= |s|
    ensures i <= k <= j
    ensures forall m :: k <= m < j ==> p(s[m])
    ensures k == i || !p(s[k - 1])
    decreases j - i
  {
    if i < j && p(s[j - 1]) then RunStart(s, i, j - 1, p) else j
  }

  /** How many white-space characters `trim` cuts off the front of `s`. */
  function LeadingSpaces(s: string): (n: nat)
    ensures n <= |s|
    ensures forall k :: 0 <= k < n ==> IsJsSpace(s[k])
    ensures n == |s| || !IsJsSpace(s[n])
  {
    RunEnd(s, 0, IsJsSpace)
  }

  /** `String.prototype.trim`: the result is a contiguous piece of `s`, only
      white space was cut off on either side, and neither end of the result
      is white space. */
  function Trim(s: string): (r: string)
    ensures r == [] || (!IsJsSpace(r[0]) && !IsJsSpace(r[|r| - 1]))
    ensures LeadingSpaces(s) + |r| <= |s|
    ensures r == s[LeadingSpaces(s)..LeadingSpaces(s) + |r|]
    ensures forall k :: 0 <= k < LeadingSpaces(s) ==> IsJsSpace(s[k])
    ensures forall k :: LeadingSpaces(s) + |r| <= k < |s| ==> IsJsSpace(s[k])
  {
    var a := LeadingSpaces(s);
    s[a..RunStart(s, a, |s|, IsJsSpace)]
  }

  /** A string whose ends are not white space is left as it is by `trim`. */
  lemma TrimOfTrimmed(s: string)
    requires s == [] || (!IsJsSpace(s[0]) && !IsJsSpace(s[|s| - 1]))
    ensures Trim(s) == s
  {
  }

  predicate AllDigits(ds: string) {
    forall k :: 0 <= k < |ds| ==> IsAsciiDigit(ds[k])
  }

  function DigitValue(c: char): (v: nat)
    requires IsAsciiDigit(c)
    ensures v < 10
  {
    c as int - '0' as int
  }

  /** `parseInt(ds, 10)` on a string of ASCII digits, read most significant
      digit first; precision loss beyond 2^53 is not modelled. */
  function DecimalValue(ds: string): nat
    requires AllDigits(ds)
  {
    if ds == [] then 0 else DecimalValue(ds[..|ds| - 1]) * 10 + DigitValue(ds[|ds| - 1])
  }

  /** The shortest decimal spelling of `n`, as in `Post ${n}`. */
  function DecimalDigits(n: nat): (ds: string)
    ensures |ds| > 0 && AllDigits(ds)
  {
    var d := ['0' + (n % 10) as char];
    if n < 10 then d else DecimalDigits(n / 10) + d
  }

  /** Reading back a written number gives the number. */
  lemma {:induction false} DecimalRoundTrip(n: nat)
    ensures DecimalValue(DecimalDigits(n)) == n
  {
    var ds := DecimalDigits(n);
    if n >= 10 {
      DecimalRoundTrip(n / 10);
      assert ds[..|ds| - 1] == DecimalDigits(n / 10);
    }
  }

  /** The pieces written one after the other. */
  function Concat(parts: seq<string>): string {
    if parts == [] then [] else parts[0] + Concat(parts[1..])
  }

  /** A non-empty sequence is its head followed by its tail. */
  lemma HeadTail<T>(xs: seq<T>)
    requires xs != []
    ensures [xs[0]] + xs[1..] == xs
  {
  }
}

=== FILE: line_endings.dfy ===
/** The first step of `parseApiResponse` (script.js:97): the raw reply goes
    through `.replace(/\r\n/g, '\n')` and then `.replace(/\r/g, '\n')`. */
module LineEndings {

  predicate NoCarriageReturn(s: string) {
    forall k :: 0 <= k < |s| ==> s[k] != '\r'
  }

  /** `.replace(/\r\n/g, '\n')`: a left-to-right scan replacing each
      non-overlapping CR LF pair. */
  function ReplaceCrLf(s: string): (r: string)
    ensures |r| <= |s|
    ensures NoCarriageReturn(s) ==> r == s
  {
    if |s| == 0 then s
    else if |s| >= 2 && s[0] == '\r' && s[1] == '\n' then "\n" + ReplaceCrLf(s[2..])
    else [s[0]] + ReplaceCrLf(s[1..])
  }

  /** `.replace(/\r/g, '\n')`. */
  function ReplaceCr(s: string): (r: string)
    ensures |r| == |s|
    ensures NoCarriageReturn(r)
    ensures forall k :: 0 <= k < |s| && s[k] != '\r' ==> r[k] == s[k]
  {
    if |s| == 0 then s
    else [if s[0] == '\r' then '\n' else s[0]] + ReplaceCr(s[1..])
  }

  /** The normalised text has no carriage return left, and a text that had
      none comes through unchanged. */
  function Normalize(s: string): (r: string)
    ensures NoCarriageReturn(r)
    ensures NoCarriageReturn(s) ==> r == s
    ensures |r| <= |s|
  {
    ReplaceCr(ReplaceCrLf(s))
  }

  /** Reference definition: one pass that reads CR LF and a lone CR each as
      one line break. */
  function UnifyNewlines(s: string): string {
    if |s| == 0 then s
    else if s[0] == '\r' then "\n" + UnifyNewlines(if |s| >= 2 && s[1] == '\n' then s[2..] else s[1..])
    else [s[0]] + UnifyNewlines(s[1..])
  }

  /** The two global replacements together behave like the single pass:
      every CR LF pair and every lone CR becomes exactly one `\n`. */
  lemma {:induction false} NormalizeUnifiesNewlines(s: string)
    ensures Normalize(s) == UnifyNewlines(s)
  {
    if |s| == 0 {
    } else if |s| >= 2 && s[0] == '\r' && s[1] == '\n' {
      NormalizeUnifiesNewlines(s[2..]);
      var x := ReplaceCrLf(s[2..]);
      assert ReplaceCrLf(s) == "\n" + x;
      assert ("\n" + x)[1..] == x;
    } else {
      NormalizeUnifiesNewlines(s[1..]);
      var x := ReplaceCrLf(s[1..]);
      assert ReplaceCrLf(s) == [s[0]] + x;
      assert ([s[0]] + x)[1..] == x;
    }
  }
}

=== FILE: markers.dfy ===
/** Segmentation of the reply into posts (script.js:98-103): the global
    regular expression `/\*\*Post\s*(\d+):\*\*[\s\S]*?(?=(\*\*Post\s*\d+:\*\*)|$)/g`
    driven by an `exec` loop. It has no `i` flag and no `m` flag, so `Post`
    is case-sensitive and `$` is the end of the whole text. */
module Markers {
  import opened JsText
  import opened Options

  const PostOpen: string := "**Post"
  const PostClose: string := ":**"

  /** Where the `(\d+)` group starts: after `**Post` and the greedy `\s*`. */
  function DigitsStart(s: string, p: nat): (a: nat)
    requires p + |PostOpen| <= |s|
    ensures p + |PostOpen| <= a <= |s|
    ensures forall k :: p + |PostOpen| <= k < a ==> IsJsSpace(s[k])
    ensures a == |s| || !IsJsSpace(s[a])
  {
    RunEnd(s, p + |PostOpen|, IsJsSpace)
  }

  /** Where the greedy `\d+` stops. Backtracking either quantifier cannot
      help, because a space is not a digit and a digit is not `:`. */
  function DigitsEnd(s: string, p: nat): (d: nat)
    requires p + |PostOpen| <= |s|
    ensures DigitsStart(s, p) <= d <= |s|
    ensures forall k :: DigitsStart(s, p) <= k < d ==> IsAsciiDigit(s[k])
    ensures d == |s| || !IsAsciiDigit(s[d])
  {
    RunEnd(s, DigitsStart(s, p), IsAsciiDigit)
  }

  /** `\*\*Post\s*(\d+):\*\*` matches at `p`. */
  predicate MarkerAt(s: string, p: nat) {
    && p + |PostOpen| <= |s|
    && s[p..p + |PostOpen|] == PostOpen
    && DigitsStart(s, p) < DigitsEnd(s, p)
    && DigitsEnd(s, p) + |PostClose| <= |s|
    && s[DigitsEnd(s, p)..DigitsEnd(s, p) + |PostClose|] == PostClose
  }

  /** End of the marker text that starts at `p`. */
  function MarkerEnd(s: string, p: nat): (e: nat)
    requires MarkerAt(s, p)
    ensures p + 10 <= e <= |s|
  {
    DigitsEnd(s, p) + |PostClose|
  }

  /** The `(\d+)` capture group of the marker at `p`. */
  function MarkerDigits(s: string, p: nat): (ds: string)
    requires MarkerAt(s, p)
    ensures |ds| > 0 && AllDigits(ds)
  {
    s[DigitsStart(s, p)..DigitsEnd(s, p)]
  }

  /** `parseInt(match[1], 10)`. */
  function MarkerId(s: string, p: nat): nat
    requires MarkerAt(s, p)
  {
    DecimalValue(MarkerDigits(s, p))
  }

  /** The id of the marker at `p`, if a marker starts there. */
  function IdAt(s: string, p: nat): Option<nat> {
    if MarkerAt(s, p) then Some(MarkerId(s, p)) else None
  }

  /** The leftmost marker at or after `from`. */
  function NextMarker(s: string, from: nat): (m: Option<nat>)
    requires from <= |s|
    ensures m.Some? ==> from <= m.value < |s| && MarkerAt(s, m.value)
    ensures m.Some? ==> NoMarkerIn(s, from, m.value)
    ensures m.None? ==> NoMarkerIn(s, from, |s|)
    decreases |s| - from
  {
    if from == |s| then None
    else if MarkerAt(s, from) then Some(from)
    else NextMarker(s, from + 1)
  }

  /** One match of the global expression: the text from `start` to `end`,
      beginning with the marker whose id it carries. */
  datatype Span = Span(start: nat, end: nat)

  /** A match of the expression: a marker at `start`, then the lazy
      `[\s\S]*?` stopping at the first later marker or at the end of text. */
  predicate ValidSpan(s: string, sp: Span) {
    && MarkerAt(s, sp.start)
    && MarkerEnd(s, sp.start) <= sp.end <= |s|
    && (sp.end == |s| || MarkerAt(s, sp.end))
    && NoMarkerIn(s, MarkerEnd(s, sp.start), sp.end)
  }

  predicate NoMarkerIn(s: string, a: nat, b: nat) {
    forall q: nat :: a <= q < b ==> !MarkerAt(s, q)
  }

  /** Where the lazy `[\s\S]*?` of the match at `p` stops: the lookahead
      accepts the first later marker or the end of the text. */
  function SegmentEnd(s: string, p: nat): (q: nat)
    requires MarkerAt(s, p)
    ensures ValidSpan(s, Span(p, q))
  {
    match NextMarker(s, MarkerEnd(s, p))
    case Some(q) => q
    case None => |s|
  }

  /** A list of matches as the `exec` loop produces them: each valid, each
      starting where the previous one ended, the last one ending the text. */
  predicate Chain(s: string, spans: seq<Span>) {
    spans == [] ||
    (&& ValidSpan(s, spans[0])
     && (if |spans| == 1 then spans[0].end == |s| else spans[1].start == spans[0].end)
     && Chain(s, spans[1..]))
  }

  /** The list view of `Chain`, position by position. */
  lemma {:induction false} ChainFacts(s: string, spans: seq<Span>)
    requires Chain(s, spans)
    ensures forall k :: 0 <= k < |spans| ==> ValidSpan(s, spans[k])
    ensures forall k :: 0 <= k < |spans| - 1 ==> spans[k].end == spans[k + 1].start
    ensures |spans| > 0 ==> spans[|spans| - 1].end == |s|
  {
    if |spans| > 1 {
      var tail := spans[1..];
      ChainFacts(s, tail);
      forall k | 1 <= k < |spans|
        ensures ValidSpan(s, spans[k])
      {
        assert spans[k] == tail[k - 1];
      }
      forall k | 1 <= k < |spans| - 1
        ensures spans[k].end == spans[k + 1].start
      {
        assert spans[k] == tail[k - 1] && spans[k + 1] == tail[k];
      }
    }
  }

  /** The `exec` loop: each call starts at `lastIndex`, the end of the
      previous match, and the loop stops at the first `null`. The matches
      are valid, adjacent, run to the end of the text, the first is the
      leftmost marker after `from`, and there are none exactly when no
      marker occurs after `from`. */
  function Scan(s: string, from: nat): (spans: seq<Span>)
    requires from <= |s|
    ensures Chain(s, spans)
    ensures |spans| > 0 ==> NextMarker(s, from) == Some(spans[0].start)
    ensures |spans| == 0 <==> NextMarker(s, from).None?
    decreases |s| - from
  {
    match NextMarker(s, from)
    case None => []
    case Some(p) => [Span(p, SegmentEnd(s, p))] + Scan(s, SegmentEnd(s, p))
  }

  /** The scan finds no post exactly when the text holds no marker at all
      after `from`, and otherwise starts at the leftmost one. */
  lemma ScanFindsNothingIffNoMarker(s: string, from: nat)
    requires from <= |s|
    ensures Scan(s, from) == [] <==> forall q: nat :: from <= q ==> !MarkerAt(s, q)
  {
    if Scan(s, from) == [] {
      forall q: nat | from <= q
        ensures !MarkerAt(s, q)
      {
        if q < |s| {
          assert !MarkerAt(s, q);
        }
      }
    }
  }

  /** Adjacent segments tile the text: glued back together they give the
      text from the first segment's start to the end, with nothing lost or
      repeated. */
  lemma {:induction false} SegmentsTile(s: string, spans: seq<Span>, parts: seq<string>)
    requires |spans| > 0 && |parts| == |spans|
    requires forall k :: 0 <= k < |spans| ==> spans[k].start <= spans[k].end <= |s|
    requires forall k :: 0 <= k < |spans| ==> parts[k] == s[spans[k].start..spans[k].end]
    requires forall k :: 0 <= k < |spans| - 1 ==> spans[k].end == spans[k + 1].start
    requires spans[|spans| - 1].end == |s|
    ensures Concat(parts) == s[spans[0].start..]
  {
    if |spans| > 1 {
      SegmentsTile(s, spans[1..], parts[1..]);
      assert s[spans[0].start..spans[0].end] + s[spans[1].start..] == s[spans[0].start..];
    }
  }

  /** Writing `**Post N:**` with the decimal digits of `N` gives a marker
      whose id is `N`. */
  lemma {:induction false} WrittenMarkerHasItsId(n: nat, rest: string)
    ensures MarkerAt(PostOpen + " " + DecimalDigits(n) + PostClose + rest, 0)
    ensures MarkerId(PostOpen + " " + DecimalDigits(n) + PostClose + rest, 0) == n
  {
    var ds := DecimalDigits(n);
    var s := PostOpen + " " + ds + PostClose + rest;
    assert s[6] == ' ';
    assert RunEnd(s, 6, IsJsSpace) == RunEnd(s, 7, IsJsSpace);
    assert !IsJsSpace(s[7]);
    assert DigitsStart(s, 0) == 7;
    assert forall k :: 7 <= k < 7 + |ds| ==> s[k] == ds[k - 7];
    RunOfDigits(s, 7, 7 + |ds|);
    assert DigitsEnd(s, 0) == 7 + |ds|;
    assert s[7 + |ds|..7 + |ds| + 3] == PostClose;
    assert MarkerDigits(s, 0) == ds;
    DecimalRoundTrip(n);
  }

  /** A greedy run is unaffected by text in front of it. */
  lemma {:induction false} RunEndShift(a: string, b: string, i: nat, p: char -> bool)
    requires i <= |b|
    ensures RunEnd(a + b, |a| + i, p) == |a| + RunEnd(b, i, p)
    decreases |b| - i
  {
    if i < |b| {
      assert (a + b)[|a| + i] == b[i];
      if p(b[i]) {
        RunEndShift(a, b, i + 1, p);
      }
    }
  }

  /** The `\s*` and `(\d+)` runs of a marker are unaffected by text in
      front of it. */
  lemma DigitsShift(a: string, b: string)
    requires |PostOpen| <= |b|
    ensures DigitsStart(a + b, |a|) == |a| + DigitsStart(b, 0)
    ensures DigitsEnd(a + b, |a|) == |a| + DigitsEnd(b, 0)
  {
    RunEndShift(a, b, |PostOpen|, IsJsSpace);
    RunEndShift(a, b, DigitsStart(b, 0), IsAsciiDigit);
  }

  lemma SliceShift(a: string, b: string, i: nat, j: nat)
    requires i <= j <= |b|
    ensures (a + b)[|a| + i..|a| + j] == b[i..j]
  {
  }

  /** A marker stays a marker, with the same id, whatever text is put in
      front of it. */
  lemma MarkerShift(a: string, b: string)
    requires MarkerAt(b, 0)
    ensures MarkerAt(a + b, |a|) && MarkerId(a + b, |a|) == MarkerId(b, 0)
  {
    DigitsShift(a, b);
    SliceShift(a, b, 0, |PostOpen|);
    SliceShift(a, b, DigitsStart(b, 0), DigitsEnd(b, 0));
    SliceShift(a, b, DigitsEnd(b, 0), DigitsEnd(b, 0) + |PostClose|);
    assert MarkerAt(a + b, |a|);
    assert MarkerDigits(a + b, |a|) == MarkerDigits(b, 0);
  }

  /** A greedy digit run over a block of digits followed by a non-digit
      stops right after the block. */
  lemma {:induction false} RunOfDigits(s: string, i: nat, j: nat)
    requires i <= j < |s|
    requires forall k :: i <= k < j ==> IsAsciiDigit(s[k])
    requires !IsAsciiDigit(s[j])
    ensures RunEnd(s, i, IsAsciiDigit) == j
    decreases j - i
  {
    if i < j {
      RunOfDigits(s, i + 1, j);
    }
  }
}

=== FILE: options.dfy ===
/** Option type shared by the scanners: `None` stands for a regular
    expression that did not match (JavaScript `null`). */
module Options {

  datatype Option<+T> = None | Some(value: T)
}

=== FILE: parser.dfy ===
/** `parseApiResponse` and `formatCaption` (script.js:95-124): the reply
    text is normalised, cut into one segment per `**Post N:**` marker, and
    each segment yields one post whose fields come from the two labelled
    patterns, the hashtag split and the sanitiser. */
module Parser {
  import opened Options
  import JsText
  import LineEndings
  import Markers
  import Fields
  import Hashtags
  import Sanitize

  datatype Caption = Caption(text: string, hashtags: string)

  /** `{ id, imageDescription, caption: { text, hashtags } }`. */
  datatype Post = Post(id: nat, imageDescription: string, caption: Caption)

  /** The `Error` thrown when no post is found. */
  datatype ParseError = NoPostsFound

  datatype ParseResult = Parsed(posts: seq<Post>) | Failed(error: ParseError)

  /** The parts of the reply object that the parser reads; a missing
      property is `None`. */
  datatype Part = Part(text: Option<string>)
  datatype Content = Content(parts: Option<seq<Part>>)
  datatype Candidate = Candidate(content: Option<Content>)
  datatype ApiResponse = ApiResponse(candidates: Option<seq<Candidate>>)

  /** `response.candidates?.[0]?.content?.parts?.[0]?.text || ''`: the text
      of the first part of the first candidate, or the empty string as soon
      as any link of the chain is missing. */
  function RawText(response: ApiResponse): (text: string)
    ensures text != "" ==>
              && response.candidates.Some? && |response.candidates.value| > 0
              && response.candidates.value[0].content.Some?
              && response.candidates.value[0].content.value.parts.Some?
              && |response.candidates.value[0].content.value.parts.value| > 0
              && response.candidates.value[0].content.value.parts.value[0].text == Some(text)
    ensures && response.candidates.Some? && |response.candidates.value| > 0
            && response.candidates.value[0].content.Some?
            && response.candidates.value[0].content.value.parts.Some?
            && |response.candidates.value[0].content.value.parts.value| > 0
            && response.candidates.value[0].content.value.parts.value[0].text.Some?
            ==> text == response.candidates.value[0].content.value.parts.value[0].text.value
  {
    match response.candidates
    case None => ""
    case Some(cs) =>
      if |cs| == 0 then "" else
      match cs[0].content
      case None => ""
      case Some(content) =>
        match content.parts
        case None => ""
        case Some(ps) =>
          if |ps| == 0 then "" else
          match ps[0].text
          case None => ""
          case Some(t) => t
  }

  /** `formatCaption`: the caption text without its hashtags, trimmed, and
      the hashtags joined by spaces, both sanitised. */
  function FormatCaption(caption: string): (c: Caption)
    ensures Sanitize.Unescape(c.text) == Hashtags.SplitCaption(caption).text
    ensures Sanitize.Unescape(c.hashtags) == Hashtags.SplitCaption(caption).hashtags
    ensures Sanitize.NoNewline(c.text) && Sanitize.NoNewline(c.hashtags)
  {
    var raw := Hashtags.SplitCaption(caption);
    Caption(Sanitize.Sanitize(raw.text), Sanitize.Sanitize(raw.hashtags))
  }

  /** The post one segment yields (script.js:102-111). */
  function BuildPost(segment: string, id: nat): (p: Post)
    ensures p.id == id
  {
    var imgMatch := Fields.Find(segment, Fields.Image, Fields.LetterZ);
    var imageDescription := if imgMatch.Some? then Sanitize.Sanitize(Fields.Extract(segment, Fields.Image, Fields.LetterZ)) else "";
    var captionMatch := Fields.Find(segment, Fields.Caption, Fields.LetterZ);
    var captionText := if captionMatch.Some? then Fields.Extract(segment, Fields.Caption, Fields.LetterZ) else "";
    Post(id, imageDescription, FormatCaption(captionText))
  }

  /** Each field of a built post, read back as HTML, is group 1 of its
      pattern's match (the caption after the hashtag split), is empty when
      the pattern does not match, and holds no raw line break. */
  lemma BuildPostFields(segment: string, id: nat)
    ensures var p := BuildPost(segment, id);
            && Sanitize.Unescape(p.imageDescription) == Fields.Extract(segment, Fields.Image, Fields.LetterZ)
            && (Fields.Find(segment, Fields.Image, Fields.LetterZ).None? ==> p.imageDescription == "")
            && Sanitize.Unescape(p.caption.text) == Hashtags.SplitCaption(Fields.Extract(segment, Fields.Caption, Fields.LetterZ)).text
            && Sanitize.Unescape(p.caption.hashtags) == Hashtags.SplitCaption(Fields.Extract(segment, Fields.Caption, Fields.LetterZ)).hashtags
            && (Fields.Find(segment, Fields.Caption, Fields.LetterZ).None? ==> p.caption == Caption("", ""))
            && Sanitize.NoNewline(p.imageDescription)
            && Sanitize.NoNewline(p.caption.text) && Sanitize.NoNewline(p.caption.hashtags)
  {
    if Fields.Find(segment, Fields.Caption, Fields.LetterZ).None? {
      CaptionOfEmpty();
    }
  }

  /** An empty caption gives an empty text and no hashtags. */
  lemma CaptionOfEmpty()
    ensures FormatCaption("") == Caption("", "")
  {
    assert Hashtags.SplitTags("") == Hashtags.Split([], [""], []);
    assert Sanitize.Sanitize("") == "" by {
      Sanitize.SanitizeKeepsPlainText("");
    }
  }

  /** One post per segment, built by `build` from the segment and the id
      at the same position. */
  function PostsOf(segments: seq<string>, ids: seq<nat>, build: (string, nat) -> Post): (posts: seq<Post>)
    requires |segments| == |ids|
    ensures |posts| == |segments|
  {
    if segments == [] then []
    else [build(segments[0], ids[0])] + PostsOf(segments[1..], ids[1..], build)
  }

  /** The post at position `k` is the one built from the k-th segment and
      the k-th id. */
  lemma {:induction false} PostsOfAt(segments: seq<string>, ids: seq<nat>, build: (string, nat) -> Post, k: nat)
    requires |segments| == |ids| && k < |segments|
    ensures PostsOf(segments, ids, build)[k] == build(segments[k], ids[k])
  {
    if k > 0 {
      PostsOfAt(segments[1..], ids[1..], build, k - 1);
    }
  }

  /** The matched segments of the normalised text, in order. */
  function Segments(text: string, spans: seq<Markers.Span>): (segments: seq<string>)
    requires forall k :: 0 <= k < |spans| ==> Markers.ValidSpan(text, spans[k])
    ensures |segments| == |spans|
    ensures forall k :: 0 <= k < |spans| ==> Markers.ValidSpan(text, spans[k]) && segments[k] == text[spans[k].start..spans[k].end]
  {
    seq(|spans|, k requires 0 <= k < |spans| => assert Markers.ValidSpan(text, spans[k]); text[spans[k].start..spans[k].end])
  }

  /** The ids parsed from the matched markers, in order. */
  function Ids(text: string, spans: seq<Markers.Span>): (ids: seq<nat>)
    requires forall k :: 0 <= k < |spans| ==> Markers.ValidSpan(text, spans[k])
    ensures |ids| == |spans|
    ensures forall k :: 0 <= k < |spans| ==> Markers.ValidSpan(text, spans[k]) && ids[k] == Markers.MarkerId(text, spans[k].start)
  {
    seq(|spans|, k requires 0 <= k < |spans| => assert Markers.ValidSpan(text, spans[k]); Markers.MarkerId(text, spans[k].start))
  }

  /** The posts found in a text whose line endings are already `\n`:
      one per match of the marker scan, none dropped for having empty
      fields. */
  function PostsIn(text: string): (posts: seq<Post>)
    ensures |posts| == |Markers.Scan(text, 0)|
  {
    var spans := Markers.Scan(text, 0);
    Markers.ChainFacts(text, spans);
    PostsOf(Segments(text, spans), Ids(text, spans), BuildPost)
  }

  /** `parseApiResponse` on the reply text: the posts of the normalised
      text, and a failure exactly when it holds no marker. */
  function ParseText(rawText: string): (r: ParseResult)
    ensures r.Failed? <==> forall q: nat :: !Markers.MarkerAt(LineEndings.Normalize(rawText), q)
    ensures r.Parsed? ==> r.posts == PostsIn(LineEndings.Normalize(rawText)) && |r.posts| > 0
  {
    var text := LineEndings.Normalize(rawText);
    Markers.ScanFindsNothingIffNoMarker(text, 0);
    var posts := PostsIn(text);
    if |posts| == 0 then Failed(NoPostsFound) else Parsed(posts)
  }

  /** `parseApiResponse` on the reply object: the error exactly when the
      reply's text, once normalised, holds no marker (a missing text
      included), and otherwise at least one post per marker found. */
  function ParseApiResponse(response: ApiResponse): (r: ParseResult)
    ensures r.Failed? <==> forall q: nat :: !Markers.MarkerAt(LineEndings.Normalize(RawText(response)), q)
    ensures r.Parsed? ==> |r.posts| > 0 && |r.posts| == |Markers.Scan(LineEndings.Normalize(RawText(response)), 0)|
  {
    ParseText(RawText(response))
  }

  /** Each post built from a list of segments carries the id at its
      position. */
  lemma PostsOfIds(segments: seq<string>, ids: seq<nat>)
    requires |segments| == |ids|
    ensures forall k :: 0 <= k < |ids| ==> PostsOf(segments, ids, BuildPost)[k].id == ids[k]
  {
    forall k | 0 <= k < |ids|
      ensures PostsOf(segments, ids, BuildPost)[k].id == ids[k]
    {
      PostsOfAt(segments, ids, BuildPost, k);
    }
  }

  /** Each post built from a list of segments has the fields of its own
      segment. */
  lemma PostsOfFields(segments: seq<string>, ids: seq<nat>)
    requires |segments| == |ids|
    ensures var posts := PostsOf(segments, ids, BuildPost);
            forall k :: 0 <= k < |ids| ==>
              && Sanitize.Unescape(posts[k].imageDescription) == Fields.Extract(segments[k], Fields.Image, Fields.LetterZ)
              && Sanitize.NoNewline(posts[k].imageDescription)
              && Sanitize.NoNewline(posts[k].caption.text)
              && Sanitize.NoNewline(posts[k].caption.hashtags)
  {
    var posts := PostsOf(segments, ids, BuildPost);
    forall k | 0 <= k < |ids|
      ensures Sanitize.Unescape(posts[k].imageDescription) == Fields.Extract(segments[k], Fields.Image, Fields.LetterZ)
      ensures Sanitize.NoNewline(posts[k].imageDescription)
      ensures Sanitize.NoNewline(posts[k].caption.text)
      ensures Sanitize.NoNewline(posts[k].caption.hashtags)
    {
      PostsOfAt(segments, ids, BuildPost, k);
      BuildPostFields(segments[k], ids[k]);
    }
  }

  /** The post built from the k-th of some matches carries the id written
      in that match's marker. */
  lemma PostsOfSpansIds(text: string, spans: seq<Markers.Span>)
    requires forall k :: 0 <= k < |spans| ==> Markers.ValidSpan(text, spans[k])
    ensures var posts := PostsOf(Segments(text, spans), Ids(text, spans), BuildPost);
            forall k :: 0 <= k < |spans| ==>
              Markers.ValidSpan(text, spans[k]) && posts[k].id == Markers.MarkerId(text, spans[k].start)
  {
    PostsOfIds(Segments(text, spans), Ids(text, spans));
  }

  /** The k-th post carries the id written in the k-th marker found. */
  lemma PostIds(text: string)
    ensures var spans := Markers.Scan(text, 0);
            var posts := PostsIn(text);
            && |posts| == |spans|
            && forall k :: 0 <= k < |posts| ==>
                 Markers.ValidSpan(text, spans[k]) && posts[k].id == Markers.MarkerId(text, spans[k].start)
  {
    var spans := Markers.Scan(text, 0);
    Markers.ChainFacts(text, spans);
    PostsOfSpansIds(text, spans);
  }

  /** The post built from the k-th of some matches has the fields of that
      match's segment. */
  lemma PostsOfSpansFields(text: string, spans: seq<Markers.Span>)
    requires forall k :: 0 <= k < |spans| ==> Markers.ValidSpan(text, spans[k])
    ensures var posts := PostsOf(Segments(text, spans), Ids(text, spans), BuildPost);
            forall k :: 0 <= k < |spans| ==>
              && Markers.ValidSpan(text, spans[k])
              && Sanitize.Unescape(posts[k].imageDescription)
                   == Fields.Extract(text[spans[k].start..spans[k].end], Fields.Image, Fields.LetterZ)
              && Sanitize.NoNewline(posts[k].imageDescription)
              && Sanitize.NoNewline(posts[k].caption.text)
              && Sanitize.NoNewline(posts[k].caption.hashtags)
  {
    PostsOfFields(Segments(text, spans), Ids(text, spans));
  }

  /** Each post's image description, read back as HTML, is group 1 of the
      image pattern's match in that post's own segment, and no field of any
      post keeps a raw line break. */
  lemma PostFields(text: string)
    ensures var spans := Markers.Scan(text, 0);
            var posts := PostsIn(text);
            && |posts| == |spans|
            && forall k :: 0 <= k < |posts| ==>
                 && Markers.ValidSpan(text, spans[k])
                 && Sanitize.Unescape(posts[k].imageDescription)
                      == Fields.Extract(text[spans[k].start..spans[k].end], Fields.Image, Fields.LetterZ)
                 && Sanitize.NoNewline(posts[k].imageDescription)
                 && Sanitize.NoNewline(posts[k].caption.text)
                 && Sanitize.NoNewline(posts[k].caption.hashtags)
  {
    var spans := Markers.Scan(text, 0);
    Markers.ChainFacts(text, spans);
    PostsOfSpansFields(text, spans);
  }

  /** A reply without text, or with empty text, is a parse failure. */
  lemma MissingTextFails(response: ApiResponse)
    requires RawText(response) == ""
    ensures ParseApiResponse(response) == Failed(NoPostsFound)
  {
    assert LineEndings.Normalize("") == "";
  }

  /** The segments of the posts, glued back together, are the text from
      the first marker on: nothing is lost or read twice. */
  lemma SegmentsCoverText(text: string)
    requires Markers.Scan(text, 0) != []
    ensures var spans := Markers.Scan(text, 0);
            && (forall k :: 0 <= k < |spans| ==> Markers.ValidSpan(text, spans[k]))
            && JsText.Concat(Segments(text, spans)) == text[spans[0].start..]
  {
    var spans := Markers.Scan(text, 0);
    Markers.ChainFacts(text, spans);
    Markers.SegmentsTile(text, spans, Segments(text, spans));
  }
}

=== FILE: prompt.dfy ===
/** `buildPrompt` (script.js:71-93): a fixed request for three posts in the
    `**Post N:**` format the parser reads, around the theme, with the
    trimmed extra instructions appended only when there are any. The
    accented words of the template are stored in script.js as the Mac Roman
    reading of their UTF-8 bytes, and are modelled as written. */
module Prompt {
  import opened JsText
  import opened Options
  import Markers

  const Opening: string := "Gere apenas 3 posts para Instagram sobre \""
  const AfterTheme: string := "\" no formato EXATO abaixo:\n\n"

  const ImageLine: string :=
    "- Imagem: [Descri\U{221A}\U{00DF}\U{221A}\U{00A3}o detalhada referente ao texto b\U{221A}\U{2260}blico]"
  const CaptionLine: string :=
    "- Legenda: [Texto b\U{221A}\U{2260}blico em portugu\U{221A}\U{2122}s com 3 hashtags e "
    + "**refer\U{221A}\U{2122}ncia b\U{221A}\U{2260}blica no final do texto \U{221A}\U{00A9} imprescind\U{221A}\U{2260}vel**]"

  const Rules: string :=
    "Regras:\n1. Seja conciso e direto\n"
    + "2. **Inclua a refer\U{221A}\U{2122}ncia b\U{221A}\U{2260}blica no final da legenda**\n"
    + "3. Mantenha este formato exato\n\n"

  const ExtraLabel: string := "Instru\U{221A}\U{00DF}\U{221A}\U{00B5}es extras: "

  /** The two field lines of every block, and the blank line after them. */
  const FieldLines: string := "\n" + ImageLine + "\n" + CaptionLine + "\n\n"

  /** The block that asks for post `n`: its marker, written the way the
      parser expects it, then `lines`. */
  function Block(n: nat, lines: string): string {
    Markers.PostOpen + " " + DecimalDigits(n) + Markers.PostClose + lines
  }

  /** Everything after the theme up to the optional extra instructions. */
  function Body(): string {
    AfterTheme + Block(1, FieldLines) + Block(2, FieldLines) + Block(3, FieldLines) + Rules
  }

  /** `${extra ? `Instruções extras: ${extra}` : ''}` with `extra` the
      trimmed content of the extra-instructions field. */
  function ExtraPart(extraInput: string): string {
    var extra := Trim(extraInput);
    if extra != "" then ExtraLabel + extra else ""
  }

  /** The prompt for `theme`; `extraInput` is the untrimmed value of the
      extra-instructions field. The fixed template always comes first, and
      something follows it exactly when the trimmed extra instructions are
      not empty. */
  function BuildPrompt(theme: string, extraInput: string): (prompt: string)
    ensures Opening + theme + Body() <= prompt
    ensures |prompt| > |Opening + theme + Body()| <==> Trim(extraInput) != ""
  {
    Opening + theme + Body() + ExtraPart(extraInput)
  }

  /** What a prompt asks for: the theme and the extra instructions. */
  datatype Request = Request(theme: string, extra: string)

  /** Reference reading of a prompt: the theme runs from the opening quote
      to the next `"`, the fixed body must follow, and what is left is
      either nothing or the labelled extra instructions. */
  function ReadPrompt(prompt: string): Option<Request> {
    ReadWith(prompt, Opening, Body(), ExtraLabel)
  }

  /** `ReadPrompt` for any opening, body and lead-in of the extra instructions. */
  function ReadWith(prompt: string, opening: string, body: string, lead: string): Option<Request> {
    if !(opening <= prompt) then None
    else
      var close := RunEnd(prompt, |opening|, c => c != '"');
      var theme := prompt[|opening|..close];
      var rest := prompt[close..];
      if !(body <= rest) then None
      else
        var tail := rest[|body|..];
        if tail == "" then Some(Request(theme, ""))
        else if lead <= tail then Some(Request(theme, tail[|lead|..]))
        else None
  }

  /** A theme without a double quote and the trimmed extra instructions can
      both be read back from the prompt. */
  lemma ReadBuiltPrompt(theme: string, extraInput: string)
    requires forall k :: 0 <= k < |theme| ==> theme[k] != '"'
    ensures ReadPrompt(BuildPrompt(theme, extraInput)) == Some(Request(theme, Trim(extraInput)))
  {
    assert Body()[0] == '"';
    ReadBack(Opening, theme, Body(), ExtraLabel, Trim(extraInput));
  }

  /** Reading back works for any opening, and any body that starts with the
      closing quote. */
  lemma ReadBack(opening: string, theme: string, body: string, lead: string, extra: string)
    requires forall k :: 0 <= k < |theme| ==> theme[k] != '"'
    requires |body| > 0 && body[0] == '"'
    ensures ReadWith(opening + theme + body + (if extra != "" then lead + extra else ""), opening, body, lead)
            == Some(Request(theme, extra))
  {
    var tail := if extra != "" then lead + extra else "";
    var prompt := opening + theme + body + tail;
    var n := |opening| + |theme|;
    assert prompt[..|opening|] == opening;
    assert prompt[|opening|..n] == theme;
    assert prompt[n..] == body + tail;
    QuoteEndsTheme(prompt, |opening|, n);
    assert (body + tail)[|body|..] == tail;
    if extra != "" {
      assert tail[|lead|..] == extra;
    }
  }

  /** The scan for the closing quote stops at the first `"`. */
  lemma {:induction false} QuoteEndsTheme(s: string, i: nat, n: nat)
    requires i <= n < |s| && s[n] == '"'
    requires forall k :: i <= k < n ==> s[k] != '"'
    ensures RunEnd(s, i, c => c != '"') == n
    decreases n - i
  {
    if i < n {
      QuoteEndsTheme(s, i + 1, n);
    }
  }

  /** The prompt holds the markers of posts 1, 2 and 3, in that order, at
      the start of their blocks, in the form the parser reads. */
  lemma PromptMarkers(theme: string, extraInput: string)
    ensures exists p1: nat, p2: nat, p3: nat ::
              && p1 < p2 < p3
              && Markers.IdAt(BuildPrompt(theme, extraInput), p1) == Some(1)
              && Markers.IdAt(BuildPrompt(theme, extraInput), p2) == Some(2)
              && Markers.IdAt(BuildPrompt(theme, extraInput), p3) == Some(3)
  {
    var prompt := BuildPrompt(theme, extraInput);
    var b1, b2, b3 := Block(1, FieldLines), Block(2, FieldLines), Block(3, FieldLines);
    var p1: nat := |Opening| + |theme| + |AfterTheme|;
    var p2: nat := p1 + |b1|;
    var p3: nat := p2 + |b2|;
    Pieces(prompt, Opening + theme, AfterTheme, b1, b2, b3, Rules, ExtraPart(extraInput), p1, p2, p3);
    ThreeBlocks(prompt, FieldLines, b1, b2, b3, p1, p2, p3);
  }

  /** Three blocks in a row, wherever they stand, carry the markers 1, 2
      and 3 at their starts. */
  lemma ThreeBlocks(s: string, lines: string, b1: string, b2: string, b3: string, p1: nat, p2: nat, p3: nat)
    requires b1 == Block(1, lines) && b2 == Block(2, lines) && b3 == Block(3, lines)
    requires p2 == p1 + |b1| && p3 == p2 + |b2| && p3 + |b3| <= |s|
    requires s[p1..p2] == b1 && s[p2..p3] == b2 && s[p3..p3 + |b3|] == b3
    ensures Markers.IdAt(s, p1) == Some(1)
    ensures Markers.IdAt(s, p2) == Some(2)
    ensures Markers.IdAt(s, p3) == Some(3)
  {
    BlockMarker(s, p1, 1, lines);
    BlockMarker(s, p2, 2, lines);
    BlockMarker(s, p3, 3, lines);
  }

  /** Where three consecutive pieces of a text stand. */
  lemma Pieces(s: string, u: string, y: string, b1: string, b2: string, b3: string, r: string, e: string,
               p1: nat, p2: nat, p3: nat)
    requires s == u + (y + b1 + b2 + b3 + r) + e
    requires p1 == |u| + |y| && p2 == p1 + |b1| && p3 == p2 + |b2|
    ensures p3 + |b3| <= |s|
    ensures s[p1..p2] == b1 && s[p2..p3] == b2 && s[p3..p3 + |b3|] == b3
  {
    assert s == (u + y) + b1 + (b2 + b3 + r + e);
    assert s == (u + y + b1) + b2 + (b3 + r + e);
    assert s == (u + y + b1 + b2) + b3 + (r + e);
  }

  /** Wherever block `n` occurs, a marker with id `n` starts. */
  lemma BlockMarker(s: string, p: nat, n: nat, lines: string)
    requires p + |Block(n, lines)| <= |s| && s[p..p + |Block(n, lines)|] == Block(n, lines)
    ensures Markers.IdAt(s, p) == Some(n)
  {
    var head := Markers.PostOpen + " " + DecimalDigits(n) + Markers.PostClose;
    var rest := s[p..];
    assert rest == head + (lines + s[p + |Block(n, lines)|..]);
    Markers.WrittenMarkerHasItsId(n, lines + s[p + |Block(n, lines)|..]);
    assert s == s[..p] + rest;
    Markers.MarkerShift(s[..p], rest);
  }
}

=== FILE: sanitize.dfy ===
/** The sanitiser that runs (script.js:263-267): the text is assigned to the
    `textContent` of a fresh element, read back through `innerHTML`, and
    every `\n` of that is replaced by `<br>`. A second `sanitizeContent` at
    script.js:126-128, which stripped `**` and quotes and trimmed, is
    declared earlier in the same function scope and is shadowed by this
    one, so it never runs. */
module Sanitize {

  const Nbsp: char := '\U{00A0}'

  /** The HTML fragment serialisation of one character of a text node:
      `&`, U+00A0, `<` and `>` become character references. */
  function EscapeChar(c: char): string {
    if c == '&' then "&amp;"
    else if c == Nbsp then "&nbsp;"
    else if c == '<' then "&lt;"
    else if c == '>' then "&gt;"
    else [c]
  }

  /** `div.textContent = text; div.innerHTML`. */
  function SerializeText(s: string): string {
    if s == [] then [] else EscapeChar(s[0]) + SerializeText(s[1..])
  }

  /** `.replace(/\n/g, '<br>')`. */
  function BreakLines(s: string): string {
    if s == [] then [] else (if s[0] == '\n' then "<br>" else [s[0]]) + BreakLines(s[1..])
  }

  /** The sanitiser as script.js runs it. The result has no line break left,
      every `&`, `<` and `>` in it belongs to a character reference or a
      `<br>` it produced, and reading it back as HTML gives the input. */
  function Sanitize(s: string): (r: string)
    ensures NoNewline(r)
    ensures WellEscaped(r)
    ensures Unescape(r) == s
  {
    TwoPassesAreUnitwise(s);
    UnitsAreSafe(s);
    BreakLines(SerializeText(s))
  }

  predicate NoNewline(s: string) {
    forall k :: 0 <= k < |s| ==> s[k] != '\n'
  }

  predicate EntityAt(r: string, i: nat)
    requires i <= |r|
  {
    "&amp;" <= r[i..] || "&lt;" <= r[i..] || "&gt;" <= r[i..] || "&nbsp;" <= r[i..]
  }

  predicate BreakAt(r: string, i: nat)
    requires i <= |r|
  {
    "<br>" <= r[i..]
  }

  /** Markup characters occur only as parts of the produced references and
      line breaks. */
  predicate WellEscaped(r: string) {
    forall i :: 0 <= i < |r| ==> EscapedAt(r, i)
  }

  /** The character at `i` is not markup, or it is part of a reference or
      a `<br>`. */
  predicate EscapedAt(r: string, i: nat)
    requires i < |r|
  {
    && (r[i] == '&' ==> EntityAt(r, i))
    && (r[i] == '<' ==> BreakAt(r, i))
    && (r[i] == '>' ==> 3 <= i && BreakAt(r, i - 3))
  }

  /** Reference definition: reading the sanitised text back as HTML, with the
      four references and `<br>` each standing for one character. */
  function Unescape(r: string): string
    decreases |r|
  {
    if r == [] then []
    else if "&amp;" <= r then "&" + Unescape(r[5..])
    else if "&lt;" <= r then "<" + Unescape(r[4..])
    else if "&gt;" <= r then ">" + Unescape(r[4..])
    else if "&nbsp;" <= r then [Nbsp] + Unescape(r[6..])
    else if "<br>" <= r then "\n" + Unescape(r[4..])
    else [r[0]] + Unescape(r[1..])
  }

  /** What one input character becomes after both passes. */
  function Unit(c: char): string {
    if c == '\n' then "<br>" else EscapeChar(c)
  }

  /** The sanitiser one character at a time. */
  function Units(s: string): string {
    if s == [] then [] else Unit(s[0]) + Units(s[1..])
  }

  /** The unit-wise output has no line break, is well escaped and reads
      back to the input. */
  lemma {:induction false} UnitsAreSafe(s: string)
    ensures NoNewline(Units(s))
    ensures WellEscaped(Units(s))
    ensures Unescape(Units(s)) == s
    decreases |s|
  {
    if s != [] {
      UnitsAreSafe(s[1..]);
      UnitPrefix(s[0], Units(s[1..]));
      assert [s[0]] + s[1..] == s;
    }
  }

  /** Putting one unit in front keeps the output well formed and reads back
      as that character. */
  lemma UnitPrefix(c: char, rest: string)
    requires NoNewline(rest) && WellEscaped(rest)
    ensures NoNewline(Unit(c) + rest)
    ensures WellEscaped(Unit(c) + rest)
    ensures Unescape(Unit(c) + rest) == [c] + Unescape(rest)
  {
    UnescapeUnit(c, rest);
    UnitHasNoNewline(c, rest);
    var r := Unit(c) + rest;
    forall i | 0 <= i < |r|
      ensures EscapedAt(r, i)
    {
      if i < |Unit(c)| {
        EscapedInUnit(c, rest, i);
      } else {
        EscapedAfterUnit(c, rest, i);
      }
    }
  }

  lemma UnitHasNoNewline(c: char, rest: string)
    requires NoNewline(rest)
    ensures NoNewline(Unit(c) + rest)
  {
    var u := Unit(c);
    assert forall k :: 0 <= k < |u| ==> u[k] != '\n';
    assert forall k :: |u| <= k < |u + rest| ==> (u + rest)[k] == rest[k - |u|];
  }

  lemma EscapedInUnit(c: char, rest: string, i: nat)
    requires i < |Unit(c)|
    ensures EscapedAt(Unit(c) + rest, i)
  {
    var u := Unit(c);
    var r := u + rest;
    assert r[..|u|] == u;
    assert r[i] == u[i];
  }

  lemma EscapedAfterUnit(c: char, rest: string, i: nat)
    requires WellEscaped(rest)
    requires |Unit(c)| <= i < |Unit(c) + rest|
    ensures EscapedAt(Unit(c) + rest, i)
  {
    var u := Unit(c);
    var r := u + rest;
    var j := i - |u|;
    assert r[i] == rest[j];
    assert r[i..] == rest[j..];
    assert EscapedAt(rest, j);
    if rest[j] == '>' {
      assert r[i - 3..] == rest[j - 3..];
    }
  }

  /** Reading back one unit gives its character. */
  lemma UnescapeUnit(c: char, rest: string)
    ensures Unescape(Unit(c) + rest) == [c] + Unescape(rest)
  {
    var u := Unit(c);
    var r := u + rest;
    assert r[|u|..] == rest;
    assert r[..|u|] == u;
    if c == '&' {
      assert "&amp;" <= r;
    } else if c == Nbsp {
      assert r[1] == 'n';
      assert "&nbsp;" <= r;
    } else if c == '<' {
      assert r[1] == 'l';
      assert "&lt;" <= r;
    } else if c == '>' {
      assert r[1] == 'g';
      assert "&gt;" <= r;
    } else if c == '\n' {
      assert r[0] == '<';
      assert "<br>" <= r;
    } else {
      assert r[0] == c;
    }
  }

  lemma {:induction false} BreakLinesAppend(a: string, b: string)
    ensures BreakLines(a + b) == BreakLines(a) + BreakLines(b)
    decreases |a|
  {
    if a == [] {
      assert a + b == b;
    } else {
      assert (a + b)[0] == a[0];
      assert (a + b)[1..] == a[1..] + b;
      BreakLinesAppend(a[1..], b);
      var h := if a[0] == '\n' then "<br>" else [a[0]];
      assert BreakLines(a + b) == h + (BreakLines(a[1..]) + BreakLines(b));
      assert BreakLines(a) == h + BreakLines(a[1..]);
    }
  }

  lemma {:induction false} BreakLinesWithoutNewline(s: string)
    requires NoNewline(s)
    ensures BreakLines(s) == s
    decreases |s|
  {
    if s != [] {
      BreakLinesWithoutNewline(s[1..]);
    }
  }

  /** Breaking the lines of one serialised character gives its unit. */
  lemma BreakLinesOfEscape(c: char)
    ensures BreakLines(EscapeChar(c)) == Unit(c)
  {
    if c != '\n' {
      BreakLinesWithoutNewline(EscapeChar(c));
    }
  }

  /** Serialising and then breaking lines is the same as translating each
      character on its own. */
  lemma {:induction false} TwoPassesAreUnitwise(s: string)
    ensures BreakLines(SerializeText(s)) == Units(s)
    decreases |s|
  {
    if s != [] {
      calc {
        BreakLines(SerializeText(s));
        BreakLines(EscapeChar(s[0]) + SerializeText(s[1..]));
        { BreakLinesAppend(EscapeChar(s[0]), SerializeText(s[1..])); }
        BreakLines(EscapeChar(s[0])) + BreakLines(SerializeText(s[1..]));
        { BreakLinesOfEscape(s[0]); TwoPassesAreUnitwise(s[1..]); }
        Unit(s[0]) + Units(s[1..]);
      }
    }
  }

  predicate IsPlain(c: char) {
    c != '&' && c != '<' && c != '>' && c != Nbsp && c != '\n'
  }

  /** The sanitiser leaves plain text alone: quotes, `*` and everything else
      outside the five special characters come through unchanged, so a field
      starting with `**` or a quote still does. */
  lemma {:induction false} SanitizeKeepsPlainText(s: string)
    requires forall k :: 0 <= k < |s| ==> IsPlain(s[k])
    ensures Sanitize(s) == s
    decreases |s|
  {
    TwoPassesAreUnitwise(s);
    if s != [] {
      SanitizeKeepsPlainText(s[1..]);
      TwoPassesAreUnitwise(s[1..]);
    }
  }

  /** A plain prefix survives sanitising in front of whatever follows. */
  lemma SanitizeKeepsPlainPrefix(p: string, s: string)
    requires forall k :: 0 <= k < |p| ==> IsPlain(p[k])
    ensures p <= Sanitize(p + s)
  {
    UnitsAppend(p, s);
    TwoPassesAreUnitwise(p + s);
    TwoPassesAreUnitwise(p);
    SanitizeKeepsPlainText(p);
  }

  lemma {:induction false} UnitsAppend(a: string, b: string)
    ensures Units(a + b) == Units(a) + Units(b)
    decreases |a|
  {
    if a == [] {
      assert a + b == b;
    } else {
      assert (a + b)[0] == a[0];
      assert (a + b)[1..] == a[1..] + b;
      UnitsAppend(a[1..], b);
      assert Units(a + b) == Unit(a[0]) + (Units(a[1..]) + Units(b));
    }
  }
}
